=== FILE: README.md ===
# The deserialize engine of salmon-serialization, in Dafny

`src/deserialize.ts` turns a self-describing transport tree into a live object
graph. Each node has the shape `{id, typename, data?, array?, param?}`;
callable nodes also carry `paramDefine` and `body`. The dispatcher `deserialize`
handles each input in one of five ways:

- A primitive, or an object without a truthy `id`, comes back unchanged.
- A node with an `id` and no `typename` is a reference. It is looked up in the
  context's id table (`deserializeRef`).
- A `"Function"` node is rebuilt as a callable (`deserializeFunction`). The
  callable may be run once when the field that owns it asks for it.
- A node with `array` becomes a plain `"Array"` or an array-like class instance
  (`deserializeArray`).
- Any other node becomes a plain `"Object"` or a registered class instance
  (`deserializeObject`). Class constructors get their arguments from
  `deserializeParams`.

The model is a set of pure functions over immutable data:

| file | module | contents |
|---|---|---|
| `wrappers.dfy` | `Wrappers` | `Option` and `Result` |
| `transport.dfy` | `Transport` | the input tree (`Input`); which ids a tree defines (`Defines`) |
| `context.dfy` | `Context` | the heap, the id table, the cursor and the run log, threaded through every step |
| `registry.dfy` | `Registry` | registered types and their metadata queries |
| `engine.dfy` | `Engine` | the deserializer, split by branch and by loop |
| `loops.dfy` | `Loops` | the field, element and parameter loops, one turn at a time |
| `cases.dfy` | `Cases` | what each branch builds, and what each field, element and argument holds |
| `cycles.dfy` | `Cycles` | back-references and cycles |
| `values.dfy` | `Values` | containers that hold only plain values |
| `findings.dfy` | `Findings` | two departures of the source from its evident intent, modelled as written |

The main modelling choices:

- **Heap.** The live heap is an arena `seq<Obj>` indexed by `Addr`.
- **Id table.** `context.add` is `Install`: it allocates the object and binds
  the id to it. `getFromKey` is a lookup in a `map<string, Addr>`.
- **Results.** Every step returns a `Step`: a `Result` (a value, or the error
  the source throws) together with the context as it stands afterwards. A
  failure therefore still shows what was added before it.
- **Invariants.** Two invariants are proved for every call of `deserialize`:
  - `Extends`: no existing object changes, and ids and runs are only added;
  - `NewRefsFrom`: every id the call adds or rebinds belongs to a node of its
    input and is bound to a newly allocated object.

  Back-references and cycles follow from these two facts, because a container
  is registered before its children are visited.
- **Collaborators.** `getDeserializableKeys`, `getFieldMeta` and the `toPlain`
  parameter converters are uninterpreted: the metadata carries them as
  function-valued fields. A converter returns a value or throws an error. The
  registry behind `getType` and `getMeta` is a map from type name to optional
  metadata.
- **Cursor and truthiness.**
  - The shared cursor (`context.parent`, `context.parentKey`) is threaded and
    never restored, as in the source.
  - A parent or key counts as truthy as in JavaScript: index 0 and the empty
    name are falsy.
  - Line 57 points the cursor's parent at the node's serialized `array`, not at
    the new array. This is kept.

Three facts about `src/deserialize.ts`, all kept in the model:

- It never calls a field-level `toClass` converter, an `onDeserialized` hook or
  a progress counter, so none is modelled.
- Constructor parameters go through the `toPlain` converter declared for them
  (lines 8-9), not a `toClass` one.
- A run of a callable resolves its arguments with the metadata of the parent's
  type (line 104), not with metadata of the callable.

## Model

| member | source | states |
|---|---|---|
| `Engine.Deserialize` | src/deserialize.ts:120-140 | No object that existed before the call changes; ids and runs are only added. Every id the call adds or rebinds is defined by a node of the input and bound to a newly allocated object. |
| `Engine.Classify` | src/deserialize.ts:121-135 | The five cases split every input by the source's truthiness tests, in the source's order. A primitive, `null` or an object without a truthy `id` is unchanged. Otherwise: no `typename` means a reference, `"Function"` means a callable, an `array` means array-like, and anything else is object-like. |
| `Engine.DeserializeObject` | src/deserialize.ts:15-42 | No object that existed before the call changes; ids and runs are only added. Every id it adds or rebinds is the node's own or is defined below it, and is bound to a newly allocated object. |
| `Engine.PlainObject` | src/deserialize.ts:16-24 | As `DeserializeObject`, for the plain `"Object"` branch. |
| `Engine.InstanceObject` | src/deserialize.ts:25-41 | As `DeserializeObject`, for the class-instance branch. |
| `Engine.DeserializeArray` | src/deserialize.ts:44-89 | No object that existed before the call changes; ids and runs are only added. Every id it adds or rebinds is the node's own or is defined below it, and is bound to a newly allocated object. |
| `Engine.PlainArray` | src/deserialize.ts:45-61 | As `DeserializeArray`, for the plain `"Array"` branch. The changes are confined to objects allocated by the call. |
| `Engine.InstanceArray` | src/deserialize.ts:63-88 | As `DeserializeArray`, for the array-like class-instance branch. |
| `Engine.DeserializeFunction` | src/deserialize.ts:91-110 | No object that existed before the call changes; ids and runs are only added. Every id added or rebound is the callable's own or is defined by an entry of its `param`; none comes from its `data` or `array`. Each is bound to a newly allocated object. |
| `Engine.DeserializeRef` | src/deserialize.ts:112-118 | Succeeds exactly when the id is registered, and then yields the registered object. Otherwise it fails with the missing-reference error. The context is untouched either way. |
| `Engine.Params` | src/deserialize.ts:5-13 | An absent `param` yields `[]` and changes nothing. Otherwise, on success, there is one value per entry of `param`. Only nodes below the node whose parameters are resolved register ids. |
| `Engine.DeserializeRoot` | src/deserialize.ts:120 | A top-level call starts from a fresh context. Afterwards every id in the table is defined by a node of the input and bound to an allocated object. |
| `Loops.ParamAt` | src/deserialize.ts:7-12 | Value `j` is parameter `j`: its declared converter applied to the entry, or else the entry's deserialization, in a context that only extends the starting one. Everything that resolution built is still there, unchanged, when the loop ends. |
| `Engine.Construct` | src/deserialize.ts:26-33 | An unregistered type fails with the unknown-type error and leaves the context exactly as it was. On success, a fresh record is allocated past every object that existed before the call. It is tagged with the type name, takes one argument per parameter, and is registered under the node's id. |
| `Cases.ConstructArg` | src/deserialize.ts:30-32 | Constructor argument `j` is parameter `j` as resolved with the type's metadata. Everything that resolution built is still there, unchanged, after the construction. |
| `Cases.ConverterThrows` | src/deserialize.ts:8-9 | When the `toPlain` converter of a class's first parameter throws, the deserialization fails with that error, and in the model nothing is constructed or registered (see `Cases.ConverterThrows` under "## Left out"). |
| `Cases.ConverterFails` | src/deserialize.ts:7-12 | When the `toPlain` converter of any constructor parameter of a class throws on that parameter, the deserialization of the instance fails. This holds for a plain instance and for an array-like one. |
| `Engine.Fields` | src/deserialize.ts:19-23 | The named-field loop changes no object except the one being populated. It leaves that object's tag, arguments and elements alone and registers only ids defined below the node. |
| `Loops.FieldsKeys` | src/deserialize.ts:35-39 | The loop writes exactly the listed keys and leaves every other field of the object as it was. |
| `Loops.FieldAt` | src/deserialize.ts:20-22 | Every key written holds `deserialize(data[key])`, computed with the cursor on (object, key). Everything that call built is still there when the loop ends. Only the object being populated may have gained fields since. |
| `Engine.Elems` | src/deserialize.ts:56-60 | On success the object has one element per entry of `array`, and the elements it already had are kept. No other object changes and its fields are untouched. |
| `Loops.ElemAt` | src/deserialize.ts:57-59 | Element `j` is `deserialize(array[j])`, computed with the cursor on (owner, `j`). Everything that call built is still there when the loop ends. Only the array being filled may have gained elements since. |
| `Cases.ReturnsUnchanged` | src/deserialize.ts:121-124 | A primitive, `null` or an object without an id comes back as it is, with the context untouched. |
| `Cases.ReferenceResolves` | src/deserialize.ts:125-126 | A node with an id and no type name yields the registered object or the missing-reference error, and the context is untouched. |
| `Cases.UnregisteredTypeFails` | src/deserialize.ts:26-29 | An unregistered class fails with the unknown-type error before anything is registered. This covers the array-like branch (lines 64-67) too. |
| `Cases.PlainObjectBuilt` | src/deserialize.ts:16-24 | A plain `"Object"` is allocated at a fresh address. Its result has exactly the keys of `data`, with no elements and no arguments. |
| `Cases.PlainObjectField` | src/deserialize.ts:17-22 | Each field is resolved after the object is registered under its id. It holds `deserialize(data[key])` computed in a context that continues that one. Everything that call built is still there, unchanged, in the result. |
| `Cases.InstanceObjectBuilt` | src/deserialize.ts:26-40 | A class instance is constructed and registered first. A construction error is the result. Without metadata and without `data`, the key listing fails. On success the fields are exactly the keys the metadata selects, or all keys of `data` when there is no metadata. |
| `Cases.InstanceWithoutData` | src/deserialize.ts:34-38 | A class instance without `data` whose metadata still lists keys fails with a TypeError once it is constructed and registered, because the first key reads `obj.data![key]`. |
| `Cases.InstanceObjectField` | src/deserialize.ts:34-39 | Each selected key holds `deserialize(data[key])`, computed with the cursor on the instance after it is registered. Everything that call built is still there, unchanged, in the result. |
| `Cases.PlainArrayBuilt` | src/deserialize.ts:45-61 | A plain `"Array"` has one element per entry of `array`, exactly the keys of `data`, and no arguments. |
| `Cases.PlainArrayField` | src/deserialize.ts:48-54 | Each named field of a plain array holds the deserialization of its `data` entry. Everything that call built is still there, unchanged, in the result: the elements resolved later only add to it. |
| `Cases.PlainArrayElement` | src/deserialize.ts:56-60 | Element `j` is `deserialize(array[j])`, computed with the cursor's parent set to the serialized `array`. Everything that call built is still there, unchanged, in the result. |
| `Cases.InstanceArrayBuilt` | src/deserialize.ts:63-87 | An array-like instance is constructed and registered first. It has the selected keys (none without `data`) and one element per entry of `array`. |
| `Cases.InstanceArrayField` | src/deserialize.ts:72-79 | Each selected key of an array-like instance holds the deserialization of its `data` entry. Everything that call built is still there, unchanged, in the result: the elements resolved later only add to it. |
| `Cases.InstanceArrayElement` | src/deserialize.ts:81-85 | Element `j` of an array-like instance is the awaited `deserialize(array[j])`, computed with the cursor on the instance. Everything that call built is still there, unchanged, in the result. |
| `Cases.FunctionBuilt` | src/deserialize.ts:91-109 | A callable is allocated and registered under its id. When the run guard does not hold, that is all that happens. When it holds, the parameters are resolved with the parent type's metadata, and one run on the cursor's parent with exactly those arguments is logged. A parameter error is the result. |
| `Cases.FunctionArg` | src/deserialize.ts:103-106 | Argument `j` of the logged run is parameter `j`, resolved with the parent type's metadata. Everything that resolution built is still there, unchanged, in the result. |
| `Cycles.ObjectSelfReference` | src/deserialize.ts:16-23 | A field of a plain object that refers to the object's own id holds the object itself. |
| `Cycles.InstanceSelfReference` | src/deserialize.ts:32-39 | A field of a class instance that refers to the instance's own id holds the instance itself. |
| `Cycles.ArraySelfReference` | src/deserialize.ts:46-60 | An element of a plain array that refers to the array's own id is the array itself. |
| `Cycles.InstanceArraySelfReference` | src/deserialize.ts:70-85 | An element of an array-like instance that refers to the instance's own id is the instance itself. |
| `Cycles.ArgumentResolves` | src/deserialize.ts:5-13 | A constructor parameter that refers to a registered id, with no converter declared, is passed the object bound to that id. |
| `Cycles.ParentPassedToChild` | test/decorator.test.ts:213-259 | Suppose a child instance in a field of its parent takes the parent, by reference, as a constructor parameter. Then, in the result, that field holds an instance of the child's type whose constructor argument is the parent itself. |
| `Cycles.MutualReference` | src/deserialize.ts:16-23 | Take a cycle through two plain objects: the parent's field `k` is an object whose field `k2` refers back to the parent. In the result, the parent's field `k` holds an object whose field `k2` is the parent itself. |
| `Cycles.LaterReference` | test/decorator.test.ts:138-153 | After a typed node is deserialized, a reference to its id yields the result, provided nothing below the node reuses the id. |
| `Cycles.FunctionRegistered` | src/deserialize.ts:92-96 | A rebuilt callable stays bound to its id, even when its parameters are resolved for a run. |
| `Cycles.ArrayRegistered` | src/deserialize.ts:44-88 | A finished array or array-like instance is the object bound to its id. |
| `Cycles.ObjectRegistered` | src/deserialize.ts:15-41 | A finished plain object or class instance is the object bound to its id. |
| `Cycles.RootReferenceDangles` | src/deserialize.ts:120-126 | With a fresh context, a top-level reference node always fails with the missing-reference error. |
| `Values.PlainObjectOfValues` | src/deserialize.ts:15-24 | A plain object whose entries are all plain values always succeeds. It holds exactly those entries, and only its own id is added. |
| `Values.PlainArrayOfValues` | test/deserialize.test.ts:34-45 | A plain array without `data`, over plain values, always succeeds. It holds exactly those values in order, and only its own id is added. |
| `Values.ElemsStoreValues` | src/deserialize.ts:56-60 | Over plain values the element loop stores each entry as it is. |
| `Findings.ClassifyAsWritten` | src/deserialize.ts:121-124 | As written, `null` takes the object branch, where reading its `id` throws. |
| `Findings.NullDiffers` | src/deserialize.ts:121-124 | As written, `null` makes the dispatcher throw, while the model returns it unchanged. The values `deserialize` hands back untouched are exactly those the dispatcher as written passes through, plus `null`. |
| `Findings.ElemsAsWritten` | src/deserialize.ts:81-85 | As written, the element loop of an array-like instance never fails. Every element it stores is a pending or rejected promise. |
| `Findings.InstanceArrayAsWritten` | src/deserialize.ts:63-88 | As written, a successful array-like instance has one element per entry of `array`, each of them a promise. |
| `Findings.PendingElementAsWritten` | src/deserialize.ts:84 | On `{id: 'q', typename: 'Queue', array: [1]}`, element 0 is a promise of 1 as written, and 1 in the model. |
| `Findings.RejectionSwallowedAsWritten` | src/deserialize.ts:84 | When an element's reference dangles, the call succeeds as written, with a rejected element. The model fails. |

## Left out

- Dynamic code: `new Function(...paramDefine, body)` (lines 92-95) becomes an opaque `Func(paramDefine, body)` record. `func.apply` (line 106) becomes an entry in the context's run log. What the body does when it runs is not modelled. Two throws are dropped with it. `new Function` throws a SyntaxError when `body` or a parameter name is malformed; this happens before `context.add` (line 96), so the call rejects and nothing is registered. And `func.apply` rejects the whole call when the body throws.
- Asynchrony: elements and parameters that the source resolves under `Promise.all` are resolved one after another, in index order. The consequences below are not modelled; the list is not exhaustive, since any interleaving of siblings at their `await`s can differ from the model's order:
  - The interleaving of sibling elements on the shared cursor.
  - Which references a sibling can see. In the source, sibling `i + 1` starts as soon as sibling `i` first suspends at an `await`, so it sees only the ids registered up to that point. On `{id:'r', typename:'Array', array:[{id:'x', typename:'Object', data:{a:{id:'y', typename:'Object', data:{}}, b:{id:'z', typename:'Object', data:{}}}}, {id:'z'}]}`, element 1 runs while element 0 waits on field `a` (line 22). At that point only `r`, `x` and `y` are registered, so the source rejects with the missing-reference error for `z`. The model finishes element 0 first, so `z` resolves and the call succeeds.
  - References to ids a later sibling registers. An earlier sibling that suspends can resume after a later one has registered its id. On `{id:'r', typename:'Array', array:[{id:'x', typename:'Object', data:{a:{id:'y', typename:'Object', data:{}}, b:{id:'z'}}}, {id:'z', typename:'Object', data:{}}]}`, element 0 waits on field `a` (line 22), and element 1 registers `z` at line 18 in the meantime. Field `b` then resolves to `z`, and the call succeeds. The model finishes element 0 first and fails with `MissingRef("z")`.
  - Which error a failing call reports. The source keeps running the other siblings after one fails, and `Promise.all` rejects with whichever failure comes first in time, not the one with the lowest index. Siblings started before the failure still register their ids in the caller's context. On `{id:'r', typename:'Array', array:[{id:'x', typename:'Object', data:{a:{id:'m1'}}}, {id:'m2'}]}` with nothing registered, element 1's lookup throws at once, while element 0's rejection still has to pass the `await` at line 22. So the source rejects with the missing-reference error for `m2`, and the model fails with `MissingRef("m1")`.
- Constructor side effects: `new type(...params)` allocates a record with the type tag and the resolved arguments. Whatever the constructor itself does is not modelled.
- Property accessors: `instance[key] = ...` (lines 38 and 77) is a plain store of the field. A setter on the class runs code and may write other keys, as the source's own accessor test relies on (test/decorator.test.ts:68-101). Accessors and setters are not modelled, so `Cases.InstanceObjectBuilt` and `Cases.InstanceObjectField` describe the stored fields of a class without them.
- The internals of `SerializableContext` and of the metadata classes are not part of this model. The registry behind `getType` and `getMeta` is a map, `add` is `Install` and `getFromKey` is a map lookup. `getDeserializableKeys` and `getFieldMeta` are uninterpreted, and mode bit values are reduced to the one `RUN_ON_DESERIALIZE` flag.
- `context.add` is modelled as binding the id, overwriting any earlier binding. Its real behaviour on a repeated id is not part of this model.
- A `toPlain` converter is a function of the entry and the context. It returns a value or throws an error, and a thrown error fails the whole call (`Cases.ConverterThrows`, `Cases.ConverterFails`). It cannot change the context, and a converter that returns a promise is taken to return the settled value.
- Numbers are opaque primitives, and ids are strings (an absent or empty id is `""`). Numeric ids and floating point are not modelled.
- `Transport.Data` is a list of entries and may repeat a key, which a JavaScript object cannot. `data[key]` (`FindKey`) reads the first entry for a key, whereas `JSON.parse` keeps the last. The property lemmas do not depend on keys being unique.
- The order of `for...in` and `Object.keys` is the order of the `data` entries as listed. Numeric keys of `data` on an array are ordinary names, not indices.
- A cursor parent that names an address not yet allocated is read as a type with no name.
- The serialize direction and progress callbacks do not appear in the modelled file.
- `Engine.ParamValue` (lines 8-11), `Engine.FieldValue` (line 38) and `Engine.InstanceKeys` (lines 34 and 73) have no rows of their own. They are helpers, and what they do is stated through the rows that use them: `Loops.ParamAt`, `Cases.ConverterThrows` and `Cases.ConverterFails` for the first; `Loops.FieldAt`, the `*Field` lemmas and `Cases.InstanceWithoutData` for the second; and `Cases.InstanceObjectBuilt`, `Cases.InstanceArrayBuilt` and `Cases.InstanceWithoutData` for the third.
- `Cases.FunctionBuilt`: its success without a run, and its logged run on success, rely on building the callable and running it never throwing (see the dynamic-code line). A run may also change its parent. So `Engine.DeserializeFunction`'s `Extends` (no object that existed before the call changes) holds only because run bodies are left out.
- `Cases.UnregisteredTypeFails`: stated only for inputs the dispatcher sends to a class branch. A node typed `"Object"` or `"Array"` never looks up a type.
- `Cases.ConverterThrows`: its "context unchanged" holds because the model resolves parameters one at a time and stops at the first error. In the source, `params.map` still starts the callbacks for parameters 1 and later after callback 0 throws. With `param: [p0, {id:'z', typename:'Object', data:{}}]`, line 18 registers `z` in the context before the call rejects.
- `Cycles.ParentPassedToChild`: covers a parameter with no converter. The source's own example passes the parent through a converter that reads the cursor, and converters are uninterpreted here.
- `Cycles.ArraySelfReference`, `Cycles.ObjectSelfReference` and the other self-reference lemmas assume that no node below the container reuses its id (`!ChildDefines(v, v.id)`). With a reused id, the inner node's binding wins from then on.

## Findings

| source | as written | input that shows it | evidently intended | confidence | as-written member | corrected member |
|---|---|---|---|---|---|---|
| src/deserialize.ts:121-124 | `typeof null` is `"object"`, so `deserializable.id` is read on `null` and throws a `TypeError` | `deserialize(null)`, or any `data` entry that is `null` | `null` is returned unchanged, like every other value without an id | medium, not executed | `Findings.ClassifyAsWritten` | `Cases.ReturnsUnchanged` |
| src/deserialize.ts:84 | `instance[index] = deserialize(item, context)` has no `await`: each element is a promise, and a failing element is a rejected promise instead of a failure of the call | `{id: 'q', typename: 'Queue', array: [1]}` with `Queue` registered | `instance[index] = await deserialize(item, context)`, as at line 59 | high, not executed | `Findings.ElemsAsWritten` | `Cases.InstanceArrayElement` |

=== FILE: cases.dfy ===
/**
  What one call of the deserializer does, case by case: which objects it
  builds, which ids it adds, and what each field, element and argument holds.
*/
module Cases {

  import opened Wrappers
  import opened Transport
  import opened Context
  import opened Registry
  import opened Engine
  import opened Loops

  /** The keys of a node's `data`; none when it has no `data`. */
  function DataKeys(n: Input): (ks: set<string>)
    requires n.Node?
    ensures n.data.Data? ==> forall k :: k in ks <==> k in Keys(n.data.fields)
    ensures n.data.NoData? ==> ks == {}
  {
    if n.data.Data? then set k | k in Keys(n.data.fields) else {}
  }

  /**
    A primitive, `null`, or an object without a truthy `id` comes back as it
    went in, and the context is untouched.
  */
  lemma ReturnsUnchanged(v: Input, reg: Registry, ctx: Ctx)
    requires v.Prim? || v.Null? || (v.Node? && v.id == "")
    ensures Deserialize(v, reg, ctx) == Step(Success(Same(v)), ctx)
  {
  }

  /**
    A node with an id but no type name yields exactly the object registered
    under that id, or fails with a dangling-reference error; either way the
    context is untouched.
  */
  lemma ReferenceResolves(v: Input, reg: Registry, ctx: Ctx)
    requires v.Node? && v.id != "" && v.typename == ""
    ensures Deserialize(v, reg, ctx).ctx == ctx
    ensures v.id in ctx.refs ==> Deserialize(v, reg, ctx).out == Success(Ref(ctx.refs[v.id]))
    ensures v.id !in ctx.refs ==> Deserialize(v, reg, ctx).out == Failure(MissingRef(v.id))
  {
  }

  /**
    A typed node whose type is not registered fails with an unknown-type error
    before anything happens: no parameter is resolved and no id is added.
  */
  lemma UnregisteredTypeFails(v: Input, reg: Registry, ctx: Ctx)
    requires v.Node? && v.id != "" && v.typename != "" && v.typename != "Function"
    requires v.typename != (if v.elements.List? then "Array" else "Object")
    requires v.typename !in reg
    ensures Deserialize(v, reg, ctx) == Step(Failure(UnknownType(v.typename)), ctx)
  {
    assert Construct(v, reg, ctx) == Step(Failure(UnknownType(v.typename)), ctx);
    if v.elements.List? {
      assert Deserialize(v, reg, ctx) == InstanceArray(v, reg, ctx);
    } else {
      assert Deserialize(v, reg, ctx) == InstanceObject(v, reg, ctx);
    }
  }

  /**
    A class whose first constructor parameter has a `toPlain` converter that
    throws: the deserialization fails with the converter's error, before the
    instance is constructed or anything is registered.
  */
  lemma ConverterThrows(v: Input, reg: Registry, ctx: Ctx)
    requires v.Node? && v.id != "" && v.typename != "" && v.typename != "Function"
    requires v.typename != (if v.elements.List? then "Array" else "Object")
    requires v.typename in reg && reg[v.typename].Some?
    requires v.param.List? && |v.param.items| > 0
    requires var conv := reg[v.typename].value.paramToPlain(0);
      conv.Some? && conv.value(v.param.items[0], ctx).Failure?
    ensures Deserialize(v, reg, ctx)
      == Step(Failure(reg[v.typename].value.paramToPlain(0).value(v.param.items[0], ctx).error), ctx)
  {
    var meta := reg[v.typename];
    var first, rest := ParamsStep(v, meta, 0, reg, ctx);
    assert Construct(v, reg, ctx) == Step(Failure(first.out.error), ctx);
    if v.elements.List? {
      assert Deserialize(v, reg, ctx) == InstanceArray(v, reg, ctx);
    } else {
      assert Deserialize(v, reg, ctx) == InstanceObject(v, reg, ctx);
    }
  }

  /**
    A class whose constructor parameter `j` has a `toPlain` converter that throws
    on that parameter, in whatever context it is called: the deserialization of
    the instance fails, whichever parameter it is.
  */
  lemma ConverterFails(v: Input, reg: Registry, ctx: Ctx, j: nat)
    requires IsInstanceNode(v) || IsInstanceArrayNode(v)
    requires v.typename in reg && reg[v.typename].Some?
    requires v.param.List? && j < |v.param.items|
    requires var conv := reg[v.typename].value.paramToPlain(j);
      conv.Some? && forall c :: conv.value(v.param.items[j], c).Failure?
    ensures Deserialize(v, reg, ctx).out.Failure?
  {
    var c := ConstructArg(v, reg, ctx, j);
    if IsInstanceNode(v) {
      InstanceObjectBuilt(v, reg, ctx);
    } else {
      InstanceArrayBuilt(v, reg, ctx);
    }
  }

  /**
    A plain `"Object"` node is added under its id at a fresh address before any
    field is resolved; the result is an `Object` record with exactly the keys of
    `data`.
  */
  lemma PlainObjectBuilt(v: Input, reg: Registry, ctx: Ctx)
    requires v.Node? && v.id != "" && v.typename == "Object" && v.elements.NoList?
    ensures var s := Deserialize(v, reg, ctx);
            var a := |ctx.heap|;
      s.out.Success? ==>
        && s.out.value == Ref(a)
        && a < |s.ctx.heap| && s.ctx.heap[a].Record? && s.ctx.heap[a].tag == "Object"
        && s.ctx.heap[a].elems == [] && s.ctx.heap[a].args == []
        && s.ctx.heap[a].fields.Keys == DataKeys(v)
  {
    var a := |ctx.heap|;
    var c0 := Install(ctx, Record("Object", map[], [], []), v.id);
    var keys := if v.data.Data? then Keys(v.data.fields) else [];
    assert Deserialize(v, reg, ctx) == PlainObject(v, reg, ctx);
    FieldsKeys(v, a, keys, 0, reg, c0);
    assert keys[0..] == keys;
  }

  /**
    Each field of a plain `"Object"` holds the deserialization of its `data`
    entry, resolved with the cursor on the new object in a context `c` that
    continues the one in which the object was registered (so `c` still binds the
    node's id to it unless a node below reuses the id). Whatever that
    deserialization built is still there, untouched, in the result.
  */
  lemma PlainObjectField(v: Input, reg: Registry, ctx: Ctx, k: string) returns (c: Ctx)
    requires v.Node? && v.id != "" && v.typename == "Object" && v.elements.NoList?
    ensures var s := Deserialize(v, reg, ctx);
            var a := |ctx.heap|;
            var c0 := Install(ctx, Record("Object", map[], [], []), v.id);
      && c0.refs[v.id] == a
      && (s.out.Success? && k in DataKeys(v) ==>
            && a < |s.ctx.heap| && s.ctx.heap[a].Record? && k in s.ctx.heap[a].fields
            && FieldIn(v, a, k, reg, c0, c, s.ctx.heap[a].fields[k])
            && ExtendsBut(FieldValue(v, k, reg, c).ctx, s.ctx, a))
  {
    var a := |ctx.heap|;
    var c0 := Install(ctx, Record("Object", map[], [], []), v.id);
    var keys := if v.data.Data? then Keys(v.data.fields) else [];
    assert Deserialize(v, reg, ctx) == PlainObject(v, reg, ctx);
    c := FieldAt(v, a, keys, 0, reg, c0, k);
    assert keys[0..] == keys;
  }

  /**
    Constructor argument `j` is parameter `j` as `deserializeParams` resolves it
    with the metadata of the type, in a context `c` this lemma names; whatever
    that resolution built is still there, untouched, after the construction.
  */
  lemma ConstructArg(n: Input, reg: Registry, ctx: Ctx, j: nat) returns (c: Ctx)
    requires n.Node? && n.param.List? && j < |n.param.items|
    ensures var s := Construct(n, reg, ctx);
      s.out.Success? ==>
        && n.typename in reg
        && j < |s.ctx.heap[s.out.value].args|
        && ParamIn(n, reg[n.typename], j, reg, ctx, c, s.ctx.heap[s.out.value].args[j])
        && Extends(ParamValue(n, reg[n.typename], j, reg, c).ctx, s.ctx)
  {
    c := ctx;
    if n.typename in reg {
      c := ParamAt(n, reg[n.typename], 0, reg, ctx, j);
      var ps := Params(n, reg[n.typename], reg, ctx);
      if ps.out.Success? {
        ExtendsTrans(ParamValue(n, reg[n.typename], j, reg, c).ctx, ps.ctx, Construct(n, reg, ctx).ctx);
      }
    }
  }

  /** The nodes the dispatcher hands to the class-instance branch of `deserializeObject`. */
  predicate IsInstanceNode(v: Input) {
    && v.Node? && v.id != "" && v.typename != "" && v.typename != "Function"
    && v.typename != "Object" && v.elements.NoList?
  }

  /**
    A class instance is constructed and registered first; its fields are then
    exactly the keys its metadata selects (all of `data` without metadata).
    Without metadata and without `data` the key listing fails.
  */
  lemma InstanceObjectBuilt(v: Input, reg: Registry, ctx: Ctx)
    requires IsInstanceNode(v)
    ensures var s := Deserialize(v, reg, ctx);
            var made := Construct(v, reg, ctx);
            var keys := InstanceKeys(v, GetMeta(reg, v.typename));
      && (made.out.Failure? ==> s == Step(Failure(made.out.error), made.ctx))
      && (made.out.Success? && keys.None? ==> s == Step(Failure(TypeError), made.ctx))
      && (s.out.Success? ==>
            && made.out.Success? && keys.Some?
            && var a := made.out.value;
            && s.out.value == Ref(a)
            && a < |s.ctx.heap| && s.ctx.heap[a].Record? && s.ctx.heap[a].tag == v.typename
            && s.ctx.heap[a].args == made.ctx.heap[a].args && s.ctx.heap[a].elems == []
            && s.ctx.heap[a].fields.Keys == set k | k in keys.value)
  {
    assert Deserialize(v, reg, ctx) == InstanceObject(v, reg, ctx);
    var made := Construct(v, reg, ctx);
    var keys := InstanceKeys(v, GetMeta(reg, v.typename));
    if made.out.Success? && keys.Some? {
      FieldsKeys(v, made.out.value, keys.value, 0, reg, made.ctx);
      assert keys.value[0..] == keys.value;
    }
  }

  /**
    A class instance without `data` whose metadata still lists keys: reading
    `obj.data![key]` for the first key throws a TypeError, after the instance
    was constructed and registered.
  */
  lemma InstanceWithoutData(v: Input, reg: Registry, ctx: Ctx)
    requires IsInstanceNode(v) && v.data.NoData?
    requires var meta := GetMeta(reg, v.typename);
      meta.Some? && meta.value.deserializableKeys(NoData) != []
    ensures var made := Construct(v, reg, ctx);
      made.out.Success? ==> Deserialize(v, reg, ctx).out == Failure(TypeError)
  {
    assert Deserialize(v, reg, ctx) == InstanceObject(v, reg, ctx);
    var made := Construct(v, reg, ctx);
    if made.out.Success? {
      var keys := InstanceKeys(v, GetMeta(reg, v.typename)).value;
      var c, child, c' := FieldsStep(v, made.out.value, keys, 0, reg, made.ctx);
    }
  }

  /**
    Each field a class instance is populated with holds the deserialization of
    its `data` entry, resolved with the cursor on the instance in a context `c`
    that continues the one in which the instance was registered. Whatever that
    deserialization built is still there, untouched, in the result.
  */
  lemma InstanceObjectField(v: Input, reg: Registry, ctx: Ctx, k: string) returns (c: Ctx)
    requires IsInstanceNode(v)
    ensures var s := Deserialize(v, reg, ctx);
            var made := Construct(v, reg, ctx);
            var keys := InstanceKeys(v, GetMeta(reg, v.typename));
      s.out.Success? && made.out.Success? && keys.Some? && k in keys.value ==>
        var a := made.out.value;
        && a < |s.ctx.heap| && s.ctx.heap[a].Record? && k in s.ctx.heap[a].fields
        && FieldIn(v, a, k, reg, made.ctx, c, s.ctx.heap[a].fields[k])
        && ExtendsBut(FieldValue(v, k, reg, c).ctx, s.ctx, a)
  {
    assert Deserialize(v, reg, ctx) == InstanceObject(v, reg, ctx);
    var made := Construct(v, reg, ctx);
    var keys := InstanceKeys(v, GetMeta(reg, v.typename));
    c := ctx;
    if made.out.Success? && keys.Some? {
      c := FieldAt(v, made.out.value, keys.value, 0, reg, made.ctx, k);
      assert keys.value[0..] == keys.value;
    }
  }

  /**
    A plain `"Array"` node is registered at a fresh address before anything
    below it is resolved; the result is an `Array` record with exactly the keys
    of `data` and one element per entry of `array`.
  */
  lemma PlainArrayBuilt(v: Input, reg: Registry, ctx: Ctx)
    requires v.Node? && v.id != "" && v.typename == "Array" && v.elements.List?
    ensures var s := Deserialize(v, reg, ctx);
            var a := |ctx.heap|;
      s.out.Success? ==>
        && s.out.value == Ref(a)
        && a < |s.ctx.heap| && s.ctx.heap[a].Record? && s.ctx.heap[a].tag == "Array"
        && s.ctx.heap[a].args == []
        && |s.ctx.heap[a].elems| == |v.elements.items|
        && s.ctx.heap[a].fields.Keys == DataKeys(v)
  {
    var a := |ctx.heap|;
    var c0 := Install(ctx, Record("Array", map[], [], []), v.id);
    assert Deserialize(v, reg, ctx) == PlainArray(v, reg, ctx);
    if v.data.Data? {
      var keys := Keys(v.data.fields);
      FieldsKeys(v, a, keys, 0, reg, c0);
      assert keys[0..] == keys;
    }
  }

  /**
    Element `j` of a plain `"Array"` is the deserialization of `array[j]`,
    resolved with the cursor on the node's own serialized `array` (not on the
    new array) in a context `c` that continues the one in which the array was
    registered. Whatever that deserialization built is still there, untouched,
    in the result.
  */
  lemma PlainArrayElement(v: Input, reg: Registry, ctx: Ctx, j: nat) returns (c: Ctx)
    requires v.Node? && v.id != "" && v.typename == "Array" && v.elements.List?
    requires j < |v.elements.items|
    ensures var s := Deserialize(v, reg, ctx);
            var a := |ctx.heap|;
            var c0 := Install(ctx, Record("Array", map[], [], []), v.id);
      s.out.Success? ==>
        && a < |s.ctx.heap| && s.ctx.heap[a].Record? && j < |s.ctx.heap[a].elems|
        && ElementIn(v, a, Serialized(v.elements.items), j, reg, c0, c, s.ctx.heap[a].elems[j])
        && ExtendsBut(ElemValue(v, j, reg, c).ctx, s.ctx, a)
  {
    var a := |ctx.heap|;
    var c0 := Install(ctx, Record("Array", map[], [], []), v.id);
    assert Deserialize(v, reg, ctx) == PlainArray(v, reg, ctx);
    var named := if v.data.Data? then Fields(v, a, Keys(v.data.fields), 0, reg, c0) else Step(Success(()), c0);
    c := c0;
    if named.out.Success? {
      c := ElemAt(v, a, Serialized(v.elements.items), 0, reg, named.ctx, j);
      var indexed := Elems(v, a, Serialized(v.elements.items), 0, reg, named.ctx);
      if indexed.out.Success? {
        ElementInEarlier(v, a, Serialized(v.elements.items), j, reg, c0, named.ctx, c, indexed.ctx.heap[a].elems[j]);
      }
    }
  }

  /**
    Each named field of a plain `"Array"` holds the deserialization of its
    `data` entry, resolved with the cursor on the new array. Whatever that
    deserialization built is still there, untouched, in the result: the
    elements resolved afterwards only add to it.
  */
  lemma PlainArrayField(v: Input, reg: Registry, ctx: Ctx, k: string) returns (c: Ctx)
    requires v.Node? && v.id != "" && v.typename == "Array" && v.elements.List?
    ensures var s := Deserialize(v, reg, ctx);
            var a := |ctx.heap|;
            var c0 := Install(ctx, Record("Array", map[], [], []), v.id);
      s.out.Success? && k in DataKeys(v) ==>
        && a < |s.ctx.heap| && s.ctx.heap[a].Record? && k in s.ctx.heap[a].fields
        && FieldIn(v, a, k, reg, c0, c, s.ctx.heap[a].fields[k])
        && ExtendsBut(FieldValue(v, k, reg, c).ctx, s.ctx, a)
  {
    var a := |ctx.heap|;
    var c0 := Install(ctx, Record("Array", map[], [], []), v.id);
    assert Deserialize(v, reg, ctx) == PlainArray(v, reg, ctx);
    c := c0;
    if v.data.Data? {
      var keys := Keys(v.data.fields);
      c := FieldAt(v, a, keys, 0, reg, c0, k);
      assert keys[0..] == keys;
      var named := Fields(v, a, keys, 0, reg, c0);
      if named.out.Success? && k in DataKeys(v) {
        var indexed := Elems(v, a, Serialized(v.elements.items), 0, reg, named.ctx);
        ExtendsButTrans(FieldValue(v, k, reg, c).ctx, named.ctx, indexed.ctx, a);
      }
    }
  }

  /** The nodes the dispatcher hands to the class-instance branch of `deserializeArray`. */
  predicate IsInstanceArrayNode(v: Input) {
    && v.Node? && v.id != "" && v.typename != "" && v.typename != "Function"
    && v.typename != "Array" && v.elements.List?
  }

  /**
    An array-like class instance is constructed and registered first; it then
    has the keys its metadata selects from `data` (none without `data`) and one
    element per entry of `array`.
  */
  lemma InstanceArrayBuilt(v: Input, reg: Registry, ctx: Ctx)
    requires IsInstanceArrayNode(v)
    ensures var s := Deserialize(v, reg, ctx);
            var made := Construct(v, reg, ctx);
            var keys := InstanceKeys(v, GetMeta(reg, v.typename));
      && (made.out.Failure? ==> s == Step(Failure(made.out.error), made.ctx))
      && (s.out.Success? ==>
            && made.out.Success?
            && var a := made.out.value;
            && s.out.value == Ref(a)
            && a < |s.ctx.heap| && s.ctx.heap[a].Record? && s.ctx.heap[a].tag == v.typename
            && s.ctx.heap[a].args == made.ctx.heap[a].args
            && |s.ctx.heap[a].elems| == |v.elements.items|
            && s.ctx.heap[a].fields.Keys == (if v.data.Data? then set k | k in keys.value else {}))
  {
    assert Deserialize(v, reg, ctx) == InstanceArray(v, reg, ctx);
    var made := Construct(v, reg, ctx);
    var keys := InstanceKeys(v, GetMeta(reg, v.typename));
    if made.out.Success? {
      var a := made.out.value;
      var named :=
        if v.data.NoData? then Step(Success(()), made.ctx)
        else Fields(v, a, keys.value, 0, reg, made.ctx);
      InstanceArrayFilled(v, a, if v.data.Data? then keys.value else [], reg, made.ctx);
      if named.out.Success? {
        var indexed := Elems(v, a, Live(a), 0, reg, named.ctx);
        assert InstanceArray(v, reg, ctx) == Finish(indexed, a);
      }
    }
  }

  /** The fields and elements an array-like class instance at `a` is populated with. */
  lemma InstanceArrayFilled(v: Input, a: Addr, keys: seq<string>, reg: Registry, c0: Ctx)
    requires v.Node? && v.elements.List? && (v.data.NoData? ==> keys == [])
    requires a < |c0.heap| && c0.heap[a].Record? && c0.heap[a].fields == map[] && c0.heap[a].elems == []
    ensures var named := if v.data.NoData? then Step(Success(()), c0) else Fields(v, a, keys, 0, reg, c0);
      named.out.Success? ==>
        && a < |named.ctx.heap| && named.ctx.heap[a].Record? && |named.ctx.heap[a].elems| == 0
        && var indexed := Elems(v, a, Live(a), 0, reg, named.ctx);
        indexed.out.Success? ==>
          && indexed.ctx.heap[a].Record? && indexed.ctx.heap[a].tag == c0.heap[a].tag
          && indexed.ctx.heap[a].args == c0.heap[a].args
          && |indexed.ctx.heap[a].elems| == |v.elements.items|
          && indexed.ctx.heap[a].fields.Keys == set k | k in keys
  {
    if v.data.Data? {
      FieldsKeys(v, a, keys, 0, reg, c0);
      assert keys[0..] == keys;
    }
  }

  /**
    Element `j` of an array-like class instance is the deserialization of
    `array[j]`, resolved with the cursor on the instance. Whatever that
    deserialization built is still there, untouched, in the result.
  */
  lemma InstanceArrayElement(v: Input, reg: Registry, ctx: Ctx, j: nat) returns (c: Ctx)
    requires IsInstanceArrayNode(v) && j < |v.elements.items|
    ensures var s := Deserialize(v, reg, ctx);
            var made := Construct(v, reg, ctx);
      s.out.Success? && made.out.Success? ==>
        var a := made.out.value;
        && a < |s.ctx.heap| && s.ctx.heap[a].Record? && j < |s.ctx.heap[a].elems|
        && ElementIn(v, a, Live(a), j, reg, made.ctx, c, s.ctx.heap[a].elems[j])
        && ExtendsBut(ElemValue(v, j, reg, c).ctx, s.ctx, a)
  {
    assert Deserialize(v, reg, ctx) == InstanceArray(v, reg, ctx);
    var made := Construct(v, reg, ctx);
    c := ctx;
    if made.out.Success? {
      var a := made.out.value;
      var named :=
        if v.data.NoData? then Step(Success(()), made.ctx)
        else Fields(v, a, InstanceKeys(v, GetMeta(reg, v.typename)).value, 0, reg, made.ctx);
      if named.out.Success? {
        c := ElemAt(v, a, Live(a), 0, reg, named.ctx, j);
        var indexed := Elems(v, a, Live(a), 0, reg, named.ctx);
        if indexed.out.Success? {
          ElementInEarlier(v, a, Live(a), j, reg, made.ctx, named.ctx, c, indexed.ctx.heap[a].elems[j]);
        }
      }
    }
  }

  /**
    Each field an array-like class instance is populated with holds the
    deserialization of its `data` entry, resolved with the cursor on the
    instance. Whatever that deserialization built is still there, untouched, in
    the result: the elements resolved afterwards only add to it.
  */
  lemma InstanceArrayField(v: Input, reg: Registry, ctx: Ctx, k: string) returns (c: Ctx)
    requires IsInstanceArrayNode(v) && v.data.Data?
    ensures var s := Deserialize(v, reg, ctx);
            var made := Construct(v, reg, ctx);
            var keys := InstanceKeys(v, GetMeta(reg, v.typename));
      s.out.Success? && made.out.Success? && keys.Some? && k in keys.value ==>
        var a := made.out.value;
        && a < |s.ctx.heap| && s.ctx.heap[a].Record? && k in s.ctx.heap[a].fields
        && FieldIn(v, a, k, reg, made.ctx, c, s.ctx.heap[a].fields[k])
        && ExtendsBut(FieldValue(v, k, reg, c).ctx, s.ctx, a)
  {
    assert Deserialize(v, reg, ctx) == InstanceArray(v, reg, ctx);
    var made := Construct(v, reg, ctx);
    var keys := InstanceKeys(v, GetMeta(reg, v.typename));
    c := ctx;
    if made.out.Success? {
      var a := made.out.value;
      c := FieldAt(v, a, keys.value, 0, reg, made.ctx, k);
      assert keys.value[0..] == keys.value;
      var named := Fields(v, a, keys.value, 0, reg, made.ctx);
      if named.out.Success? && k in keys.value {
        var indexed := Elems(v, a, Live(a), 0, reg, named.ctx);
        ExtendsButTrans(FieldValue(v, k, reg, c).ctx, named.ctx, indexed.ctx, a);
      }
    }
  }

  /**
    The run guard of `deserializeFunction`, read in the context `c` where the
    callable is already registered: the cursor has a truthy parent and key, the
    parent's type has metadata, and that metadata marks the key's field
    `RUN_ON_DESERIALIZE`.
  */
  predicate RunRequested(c: Ctx, reg: Registry) {
    && HasParent(c) && HasKey(c)
    && var meta := GetMeta(reg, ParentTypeName(c));
    && meta.Some?
    && var field := meta.value.fieldMeta(c.parentKey);
    && field.Some? && field.value.runOnDeserialize
  }

  /**
    A `"Function"` node is rebuilt as a callable at a fresh address and added
    under its id before anything else happens. Unless the run guard holds the
    result is that callable and nothing else changes; when it holds, the
    parameters are resolved with the parent type's metadata and one run of the
    callable on the cursor's parent, with exactly those arguments, is logged.
  */
  lemma FunctionBuilt(v: Input, reg: Registry, ctx: Ctx)
    requires v.Node? && v.id != "" && v.typename == "Function"
    ensures var s := Deserialize(v, reg, ctx);
            var a := |ctx.heap|;
            var c1 := Install(ctx, Func(v.paramDefine, v.body), v.id);
      && (!RunRequested(c1, reg) ==> s == Step(Success(Ref(a)), c1))
      && (RunRequested(c1, reg) ==>
            var ps := Params(v, GetMeta(reg, ParentTypeName(c1)), reg, c1);
            && (ps.out.Failure? ==> s == Step(Failure(ps.out.error), ps.ctx))
            && (ps.out.Success? ==>
                  && s.out == Success(Ref(a))
                  && s.ctx == ps.ctx.(runs := ps.ctx.runs + [Run(a, ps.ctx.parent, ps.out.value)])
                  && |ps.out.value| == (if v.param.List? then |v.param.items| else 0)))
      && (s.out.Success? ==> s.out.value == Ref(a) && a < |s.ctx.heap| && s.ctx.heap[a] == Func(v.paramDefine, v.body))
  {
    assert Deserialize(v, reg, ctx) == DeserializeFunction(v, reg, ctx);
  }

  /**
    Argument `j` of the run logged last is parameter `j` as `deserializeParams`
    resolves it with the metadata of the parent's type, in a context `c` this
    lemma names; whatever that resolution built is still there, untouched, in
    the result.
  */
  lemma FunctionArg(v: Input, reg: Registry, ctx: Ctx, j: nat) returns (c: Ctx)
    requires v.Node? && v.id != "" && v.typename == "Function"
    requires v.param.List? && j < |v.param.items|
    ensures var s := Deserialize(v, reg, ctx);
            var c1 := Install(ctx, Func(v.paramDefine, v.body), v.id);
      s.out.Success? && RunRequested(c1, reg) ==>
        && |s.ctx.runs| > 0
        && var run := s.ctx.runs[|s.ctx.runs| - 1];
        && j < |run.args|
        && ParamIn(v, GetMeta(reg, ParentTypeName(c1)), j, reg, c1, c, run.args[j])
        && Extends(ParamValue(v, GetMeta(reg, ParentTypeName(c1)), j, reg, c).ctx, s.ctx)
  {
    var c1 := Install(ctx, Func(v.paramDefine, v.body), v.id);
    var meta := GetMeta(reg, ParentTypeName(c1));
    c := ParamAt(v, meta, 0, reg, c1, j);
    FunctionRun(v, reg, ctx, j, c);
  }

  /** `FunctionArg`, given what `ParamAt` says about the parameters of the run. */
  lemma FunctionRun(v: Input, reg: Registry, ctx: Ctx, j: nat, c: Ctx)
    requires v.Node? && v.id != "" && v.typename == "Function"
    requires v.param.List? && j < |v.param.items|
    requires var c1 := Install(ctx, Func(v.paramDefine, v.body), v.id);
      ParamResolved(v, GetMeta(reg, ParentTypeName(c1)), 0, reg, c1, j, c)
    ensures var s := Deserialize(v, reg, ctx);
            var c1 := Install(ctx, Func(v.paramDefine, v.body), v.id);
      s.out.Success? && RunRequested(c1, reg) ==>
        && |s.ctx.runs| > 0
        && var run := s.ctx.runs[|s.ctx.runs| - 1];
        && j < |run.args|
        && ParamIn(v, GetMeta(reg, ParentTypeName(c1)), j, reg, c1, c, run.args[j])
        && Extends(ParamValue(v, GetMeta(reg, ParentTypeName(c1)), j, reg, c).ctx, s.ctx)
  {
    var s := Deserialize(v, reg, ctx);
    var c1 := Install(ctx, Func(v.paramDefine, v.body), v.id);
    var meta := GetMeta(reg, ParentTypeName(c1));
    var ps := ParamsFrom(v, meta, 0, reg, c1);
    FunctionBuilt(v, reg, ctx);
    assert Params(v, meta, reg, c1) == ps;
    if s.out.Success? && RunRequested(c1, reg) {
      ExtendsTrans(ParamValue(v, meta, j, reg, c).ctx, ps.ctx, s.ctx);
    }
  }
}

=== FILE: context.dfy ===
/**
  The traversal context: the live heap as an explicit arena, the reference table
  (id to address), the shared cursor (`parent`, `parentKey`), and the log of
  callables the deserializer asked to run.
*/
module Context {

  import opened Wrappers
  import opened Transport

  /** The address of a live object: its index in the arena. */
  type Addr = nat

  /** The errors the deserializer throws. */
  datatype Error =
    | UnknownType(name: string)  // "Cannot find the type <name>, did you forget to register it?"
    | MissingRef(id: string)     // "Cannot find the reference <id>, did you forget to add it on extras?"
    | TypeError                  // a property read on `undefined` or `null`
    | Thrown(message: string)    // whatever a `toPlain` converter throws

  /** A live JavaScript value produced by the deserializer. */
  datatype Value =
    | Same(input: Input)         // the input itself, returned unchanged
    | Ref(addr: Addr)            // an object in the arena
    | Pending(resolved: Value)   // a promise that settles to `resolved`
    | Rejected(error: Error)     // a promise that rejects with `error`

  /** A live object: a plain object, an array or a class instance, or a rebuilt callable. */
  datatype Obj =
    | Record(tag: string, fields: map<string, Value>, elems: seq<Value>, args: seq<Value>)
    | Func(paramDefine: seq<string>, body: string)

  /** `context.parent`: nothing yet, a live object, or the serialized `array` of a node. */
  datatype Cursor = NoParent | Live(addr: Addr) | Serialized(items: seq<Input>)

  /** `context.parentKey`: nothing yet, a field name, or an element index. */
  datatype Key = NoKey | Name(name: string) | Index(index: nat)

  /** A request to invoke the callable at `func` on `self` with `args`. */
  datatype Run = Run(func: Addr, self: Cursor, args: seq<Value>)

  datatype Ctx = Ctx(refs: map<string, Addr>, heap: seq<Obj>, parent: Cursor, parentKey: Key, runs: seq<Run>)

  /** The outcome of one deserialization step, with the context as it is afterwards. */
  datatype Step<+T> = Step(out: Result<T, Error>, ctx: Ctx)

  /** A fresh `SerializableContext`. */
  const Empty := Ctx(map[], [], NoParent, NoKey, [])

  /** `context.parent` is truthy. */
  predicate HasParent(c: Ctx) {
    !c.parent.NoParent?
  }

  /** `context.parentKey` is truthy: index 0 and the empty name are falsy. */
  predicate HasKey(c: Ctx) {
    match c.parentKey
    case NoKey => false
    case Name(s) => s != ""
    case Index(i) => i != 0
  }

  /** `context.parent.constructor.name`. */
  function ParentTypeName(c: Ctx): string {
    match c.parent
    case NoParent => ""
    case Serialized(_) => "Array"
    case Live(a) =>
      if a < |c.heap| then (if c.heap[a].Record? then c.heap[a].tag else "Function") else ""
  }

  /** Allocates `o` at the next free address and adds it to the reference table under `id`. */
  function Install(c: Ctx, o: Obj, id: string): (c': Ctx)
    ensures |c'.heap| == |c.heap| + 1 && c'.heap[|c.heap|] == o
    ensures forall j :: 0 <= j < |c.heap| ==> c'.heap[j] == c.heap[j]
    ensures c'.refs.Keys == c.refs.Keys + {id} && c'.refs[id] == |c.heap|
    ensures forall d :: d in c.refs && d != id ==> c'.refs[d] == c.refs[d]
    ensures c'.parent == c.parent && c'.parentKey == c.parentKey && c'.runs == c.runs
  {
    c.(heap := c.heap + [o], refs := c.refs[id := |c.heap|])
  }

  /**
    `c1` continues `c0`: no live object of `c0` was changed, the reference table
    only gained ids, and the run log only grew.
  */
  ghost predicate Extends(c0: Ctx, c1: Ctx) {
    && c0.heap <= c1.heap
    && c0.refs.Keys <= c1.refs.Keys
    && c0.runs <= c1.runs
  }

  /**
    `c1` continues `c0` except at the record at `a`, whose fields and elements
    may differ in any way; its tag and constructor arguments are unchanged.
  */
  ghost predicate ExtendsBut(c0: Ctx, c1: Ctx, a: Addr) {
    && a < |c0.heap| <= |c1.heap|
    && (forall j :: 0 <= j < |c0.heap| && j != a ==> c1.heap[j] == c0.heap[j])
    && c0.heap[a].Record? && c1.heap[a].Record?
    && c1.heap[a].tag == c0.heap[a].tag && c1.heap[a].args == c0.heap[a].args
    && c0.refs.Keys <= c1.refs.Keys
    && c0.runs <= c1.runs
  }

  /**
    Every entry of `c1`'s reference table that `c0` lacks, or binds to another
    address, is the id of a node of `v` and is bound to an object allocated
    after `c0`.
  */
  ghost predicate NewRefsFrom(c0: Ctx, c1: Ctx, v: Input) {
    forall d :: d in c1.refs && !(d in c0.refs && c1.refs[d] == c0.refs[d]) ==>
      Defines(v, d) && |c0.heap| <= c1.refs[d] < |c1.heap|
  }

  /** As `NewRefsFrom`, for the ids of the nodes below `n`. */
  ghost predicate NewRefsBelow(c0: Ctx, c1: Ctx, n: Input)
    requires n.Node?
  {
    forall d :: d in c1.refs && !(d in c0.refs && c1.refs[d] == c0.refs[d]) ==>
      ChildDefines(n, d) && |c0.heap| <= c1.refs[d] < |c1.heap|
  }

  /** As `NewRefsFrom`, for the ids of the nodes in `n`'s `param` list. */
  ghost predicate NewRefsInParams(c0: Ctx, c1: Ctx, n: Input)
    requires n.Node?
  {
    forall d :: d in c1.refs && !(d in c0.refs && c1.refs[d] == c0.refs[d]) ==>
      ParamDefines(n, d) && |c0.heap| <= c1.refs[d] < |c1.heap|
  }

  /** As `NewRefsFrom`, for `n`'s own id and the ids of the nodes below it. */
  ghost predicate NewRefsAt(c0: Ctx, c1: Ctx, n: Input)
    requires n.Node?
  {
    forall d :: d in c1.refs && !(d in c0.refs && c1.refs[d] == c0.refs[d]) ==>
      (d == n.id || ChildDefines(n, d)) && |c0.heap| <= c1.refs[d] < |c1.heap|
  }

  /** What parameter `i` registers is registered by `n`'s `param` list, below `n`. */
  lemma NewRefsOfParam(c0: Ctx, c1: Ctx, n: Input, i: nat)
    requires n.Node? && n.param.List? && i < |n.param.items|
    requires NewRefsFrom(c0, c1, n.param.items[i])
    ensures NewRefsInParams(c0, c1, n) && NewRefsBelow(c0, c1, n)
  {
    forall d | d in c1.refs && !(d in c0.refs && c1.refs[d] == c0.refs[d])
      ensures ParamDefines(n, d) && ChildDefines(n, d)
    {
      assert Defines(n.param.items[i], d);
    }
  }

  lemma ExtendsTrans(c0: Ctx, c1: Ctx, c2: Ctx)
    requires Extends(c0, c1) && Extends(c1, c2)
    ensures Extends(c0, c2)
  {
  }

  /** A registration of `n` followed by steps that register only nodes below it. */
  lemma NewRefsThenBelow(c0: Ctx, c1: Ctx, c2: Ctx, n: Input)
    requires n.Node?
    requires |c0.heap| <= |c1.heap| <= |c2.heap|
    requires NewRefsAt(c0, c1, n) && NewRefsBelow(c1, c2, n)
    ensures NewRefsAt(c0, c2, n)
  {
  }

  /** Steps that register only nodes below `n`, followed by a registration of `n`. */
  lemma BelowThenNewRefs(c0: Ctx, c1: Ctx, c2: Ctx, n: Input)
    requires n.Node?
    requires |c0.heap| <= |c1.heap| <= |c2.heap|
    requires NewRefsBelow(c0, c1, n) && NewRefsAt(c1, c2, n)
    ensures NewRefsAt(c0, c2, n)
  {
  }

  lemma BelowTrans(c0: Ctx, c1: Ctx, c2: Ctx, n: Input)
    requires n.Node?
    requires |c0.heap| <= |c1.heap| <= |c2.heap|
    requires NewRefsBelow(c0, c1, n) && NewRefsBelow(c1, c2, n)
    ensures NewRefsBelow(c0, c2, n)
  {
  }

  lemma ExtendsButTrans(c0: Ctx, c1: Ctx, c2: Ctx, a: Addr)
    requires ExtendsBut(c0, c1, a) && ExtendsBut(c1, c2, a)
    ensures ExtendsBut(c0, c2, a)
  {
  }

  /** Changes confined to an object allocated after `c0` leave `c0` extended. */
  lemma ExtendsPastFresh(c0: Ctx, c1: Ctx, c2: Ctx, a: Addr)
    requires Extends(c0, c1) && |c0.heap| <= a
    requires ExtendsBut(c1, c2, a)
    ensures Extends(c0, c2)
  {
  }
}

=== FILE: cycles.dfy ===
/**
  Back-references and cycles. A container is added to the reference table
  under its id before anything below it is resolved, so a reference to that id
  met while its fields, elements or constructor parameters are resolved yields
  the very object under construction, and a reference met afterwards yields
  the finished one.
*/
module Cycles {

  import opened Wrappers
  import opened Transport
  import opened Context
  import opened Registry
  import opened Engine
  import opened Loops
  import opened Cases

  /** The `data` entry of `v` under `k` is the node `w`. */
  predicate FieldHolds(v: Input, k: string, w: Input) {
    && v.Node? && v.data.Data?
    && var j := FindKey(v.data.fields, k);
    && j.Some? && v.data.fields[j.value].val == w
  }

  /** An id bound in `c0` that nothing below `n` defines keeps its binding. */
  lemma BindingKept(c0: Ctx, c1: Ctx, n: Input, d: string)
    requires n.Node? && c0.refs.Keys <= c1.refs.Keys && NewRefsBelow(c0, c1, n)
    requires d in c0.refs && !ChildDefines(n, d)
    ensures d in c1.refs && c1.refs[d] == c0.refs[d]
  {
  }

  /** What the `data` entry under `k` defines, its owner defines below itself. */
  lemma FieldDefinesBelow(v: Input, k: string, w: Input, d: string)
    requires FieldHolds(v, k, w)
    ensures Defines(w, d) ==> ChildDefines(v, d)
  {
    var j := FindKey(v.data.fields, k).value;
    assert Defines(w, d) ==> Defines(v.data.fields[j].val, d);
  }

  /** A field whose entry is a reference to an id bound to `a` reads as the object at `a`. */
  lemma SelfFieldResolves(v: Input, k: string, reg: Registry, a: Addr, c: Ctx)
    requires v.Node? && v.id != ""
    requires FieldHolds(v, k, RefNode(v.id))
    requires v.id in c.refs && c.refs[v.id] == a
    ensures FieldValue(v, k, reg, c) == Step(Success(Ref(a)), c)
  {
    var j := FindKey(v.data.fields, k).value;
    var x := v.data.fields[j].val;
    assert x == RefNode(v.id) && Classify(x) == Reference;
    assert FieldValue(v, k, reg, c) == Deserialize(x, reg, c);
  }

  /**
    A field of a plain `"Object"` whose `data` entry is a reference to the
    object's own id holds the object itself: the result is a cycle.
  */
  lemma ObjectSelfReference(v: Input, reg: Registry, ctx: Ctx, k: string)
    requires v.Node? && v.id != "" && v.typename == "Object" && v.elements.NoList?
    requires FieldHolds(v, k, RefNode(v.id))
    requires !ChildDefines(v, v.id)
    ensures var s := Deserialize(v, reg, ctx);
      s.out.Success? ==>
        && s.out.value == Ref(|ctx.heap|)
        && |ctx.heap| < |s.ctx.heap| && s.ctx.heap[|ctx.heap|].Record?
        && k in s.ctx.heap[|ctx.heap|].fields
        && s.ctx.heap[|ctx.heap|].fields[k] == s.out.value
  {
    var s := Deserialize(v, reg, ctx);
    var a := |ctx.heap|;
    var c0 := Install(ctx, Record("Object", map[], [], []), v.id);
    PlainObjectBuilt(v, reg, ctx);
    var c := PlainObjectField(v, reg, ctx, k);
    if s.out.Success? {
      assert k in DataKeys(v);
      BindingKept(c0, c, v, v.id);
      SelfFieldResolves(v, k, reg, a, c);
    }
  }

  /**
    A field of a class instance whose `data` entry is a reference to the
    instance's own id holds the instance itself.
  */
  lemma InstanceSelfReference(v: Input, reg: Registry, ctx: Ctx, k: string)
    requires IsInstanceNode(v)
    requires FieldHolds(v, k, RefNode(v.id))
    requires !ChildDefines(v, v.id)
    ensures var s := Deserialize(v, reg, ctx);
            var keys := InstanceKeys(v, GetMeta(reg, v.typename));
      s.out.Success? && keys.Some? && k in keys.value ==>
        && s.out.value.Ref? && s.out.value.addr < |s.ctx.heap|
        && s.ctx.heap[s.out.value.addr].Record?
        && k in s.ctx.heap[s.out.value.addr].fields
        && s.ctx.heap[s.out.value.addr].fields[k] == s.out.value
  {
    var s := Deserialize(v, reg, ctx);
    var made := Construct(v, reg, ctx);
    var keys := InstanceKeys(v, GetMeta(reg, v.typename));
    InstanceObjectBuilt(v, reg, ctx);
    var c := InstanceObjectField(v, reg, ctx, k);
    if s.out.Success? && keys.Some? && k in keys.value {
      BindingKept(made.ctx, c, v, v.id);
      SelfFieldResolves(v, k, reg, made.out.value, c);
    }
  }

  /**
    An element of a plain `"Array"` that is a reference to the array's own id
    is the array itself.
  */
  lemma ArraySelfReference(v: Input, reg: Registry, ctx: Ctx, j: nat)
    requires v.Node? && v.id != "" && v.typename == "Array" && v.elements.List?
    requires j < |v.elements.items| && v.elements.items[j] == RefNode(v.id)
    requires !ChildDefines(v, v.id)
    ensures var s := Deserialize(v, reg, ctx);
      s.out.Success? ==>
        && s.out.value == Ref(|ctx.heap|)
        && |ctx.heap| < |s.ctx.heap| && s.ctx.heap[|ctx.heap|].Record?
        && j < |s.ctx.heap[|ctx.heap|].elems|
        && s.ctx.heap[|ctx.heap|].elems[j] == s.out.value
  {
    var s := Deserialize(v, reg, ctx);
    var c0 := Install(ctx, Record("Array", map[], [], []), v.id);
    PlainArrayBuilt(v, reg, ctx);
    var c := PlainArrayElement(v, reg, ctx, j);
    if s.out.Success? {
      BindingKept(c0, c, v, v.id);
      assert ElemValue(v, j, reg, c) == DeserializeRef(v.id, c);
    }
  }

  /**
    An element of an array-like class instance that is a reference to the
    instance's own id is the instance itself.
  */
  lemma InstanceArraySelfReference(v: Input, reg: Registry, ctx: Ctx, j: nat)
    requires IsInstanceArrayNode(v)
    requires j < |v.elements.items| && v.elements.items[j] == RefNode(v.id)
    requires !ChildDefines(v, v.id)
    ensures var s := Deserialize(v, reg, ctx);
      s.out.Success? ==>
        && s.out.value.Ref? && s.out.value.addr < |s.ctx.heap|
        && s.ctx.heap[s.out.value.addr].Record?
        && j < |s.ctx.heap[s.out.value.addr].elems|
        && s.ctx.heap[s.out.value.addr].elems[j] == s.out.value
  {
    var s := Deserialize(v, reg, ctx);
    var made := Construct(v, reg, ctx);
    InstanceArrayBuilt(v, reg, ctx);
    var c := InstanceArrayElement(v, reg, ctx, j);
    if s.out.Success? {
      BindingKept(made.ctx, c, v, v.id);
      assert ElemValue(v, j, reg, c) == DeserializeRef(v.id, c);
    }
  }

  /**
    A class instance whose constructor parameter `j` is a reference to an id
    bound to `a` (no converter declared for it, and no node below the instance
    reusing the id) is constructed with the object at `a` as argument `j`.
  */
  lemma ArgumentResolves(w: Input, reg: Registry, c: Ctx, j: nat, id: string, a: Addr)
    requires w.Node? && w.param.List? && j < |w.param.items|
    requires id != "" && w.param.items[j] == RefNode(id)
    requires GetMeta(reg, w.typename).Some? ==> GetMeta(reg, w.typename).value.paramToPlain(j).None?
    requires id in c.refs && c.refs[id] == a && !ChildDefines(w, id)
    ensures var made := Construct(w, reg, c);
      made.out.Success? ==>
        && j < |made.ctx.heap[made.out.value].args|
        && made.ctx.heap[made.out.value].args[j] == Ref(a)
  {
    var made := Construct(w, reg, c);
    var c2 := ConstructArg(w, reg, c, j);
    if made.out.Success? {
      BindingKept(c, c2, w, id);
      assert ParamValue(w, reg[w.typename], j, reg, c2) == Deserialize(w.param.items[j], reg, c2);
    }
  }

  /**
    A parent class instance whose field `k` is a child class instance that
    takes the parent, by reference, as constructor parameter `j` (with no
    converter declared for it): in the result, field `k` holds an instance of
    the child's type whose argument `j` is the parent itself.
  */
  lemma ParentPassedToChild(v: Input, reg: Registry, ctx: Ctx, k: string, w: Input, j: nat)
    requires IsInstanceNode(v) && IsInstanceNode(w) && FieldHolds(v, k, w)
    requires w.param.List? && j < |w.param.items|
    requires w.param.items[j] == RefNode(v.id)
    requires GetMeta(reg, w.typename).Some? ==> GetMeta(reg, w.typename).value.paramToPlain(j).None?
    requires !ChildDefines(v, v.id)
    ensures var s := Deserialize(v, reg, ctx);
            var keys := InstanceKeys(v, GetMeta(reg, v.typename));
      s.out.Success? && keys.Some? && k in keys.value ==>
        && s.out.value.Ref? && s.out.value.addr < |s.ctx.heap|
        && s.ctx.heap[s.out.value.addr].Record?
        && k in s.ctx.heap[s.out.value.addr].fields
        && s.ctx.heap[s.out.value.addr].fields[k].Ref?
        && var b := s.ctx.heap[s.out.value.addr].fields[k].addr;
        && b < |s.ctx.heap| && s.ctx.heap[b].Record? && s.ctx.heap[b].tag == w.typename
        && j < |s.ctx.heap[b].args| && s.ctx.heap[b].args[j] == s.out.value
  {
    var s := Deserialize(v, reg, ctx);
    var made := Construct(v, reg, ctx);
    var keys := InstanceKeys(v, GetMeta(reg, v.typename));
    InstanceObjectBuilt(v, reg, ctx);
    var c := InstanceObjectField(v, reg, ctx, k);
    if s.out.Success? && keys.Some? && k in keys.value {
      var sw := Deserialize(w, reg, c);
      assert FieldValue(v, k, reg, c) == sw;
      InstanceObjectBuilt(w, reg, c);
      BindingKept(made.ctx, c, v, v.id);
      FieldDefinesBelow(v, k, w, v.id);
      ArgumentResolves(w, reg, c, j, v.id, made.out.value);
      var b := Construct(w, reg, c).out.value;
      assert sw.out.value == Ref(b) && b != made.out.value;
    }
  }

  /**
    A plain `"Object"` `w`, deserialized in a context that binds `d` to `a`,
    whose field `k2` is a reference to `d` (and which reuses `d` nowhere): the
    new object's field `k2` holds the object at `a`.
  */
  lemma FieldRefersBack(w: Input, reg: Registry, c: Ctx, k2: string, d: string, a: Addr)
    requires w.Node? && w.id != "" && w.typename == "Object" && w.elements.NoList?
    requires d != "" && FieldHolds(w, k2, RefNode(d))
    requires d in c.refs && c.refs[d] == a && w.id != d && !ChildDefines(w, d)
    ensures var sw := Deserialize(w, reg, c);
            var b := |c.heap|;
      sw.out.Success? ==>
        && sw.out.value == Ref(b) && b < |sw.ctx.heap| && sw.ctx.heap[b].Record?
        && k2 in sw.ctx.heap[b].fields && sw.ctx.heap[b].fields[k2] == Ref(a)
  {
    var sw := Deserialize(w, reg, c);
    var c0 := Install(c, Record("Object", map[], [], []), w.id);
    PlainObjectBuilt(w, reg, c);
    var cw := PlainObjectField(w, reg, c, k2);
    if sw.out.Success? {
      assert k2 in DataKeys(w);
      BindingKept(c0, cw, w, d);
      assert FieldValue(w, k2, reg, cw) == Deserialize(RefNode(d), reg, cw);
    }
  }

  /**
    A cycle through two plain objects: `v`'s field `k` is an object `w` whose
    field `k2` refers back to `v`. In the result, `v`'s field `k` holds an object
    whose field `k2` is `v` itself.
  */
  lemma MutualReference(v: Input, reg: Registry, ctx: Ctx, k: string, w: Input, k2: string)
    requires v.Node? && v.id != "" && v.typename == "Object" && v.elements.NoList?
    requires FieldHolds(v, k, w)
    requires w.Node? && w.id != "" && w.typename == "Object" && w.elements.NoList?
    requires FieldHolds(w, k2, RefNode(v.id))
    requires !ChildDefines(v, v.id)
    ensures var s := Deserialize(v, reg, ctx);
      s.out.Success? ==>
        && s.out.value == Ref(|ctx.heap|)
        && |ctx.heap| < |s.ctx.heap| && s.ctx.heap[|ctx.heap|].Record?
        && k in s.ctx.heap[|ctx.heap|].fields && s.ctx.heap[|ctx.heap|].fields[k].Ref?
        && var b := s.ctx.heap[|ctx.heap|].fields[k].addr;
        && b < |s.ctx.heap| && s.ctx.heap[b].Record?
        && k2 in s.ctx.heap[b].fields && s.ctx.heap[b].fields[k2] == s.out.value
  {
    var s := Deserialize(v, reg, ctx);
    var a := |ctx.heap|;
    var c0 := Install(ctx, Record("Object", map[], [], []), v.id);
    PlainObjectBuilt(v, reg, ctx);
    var c := PlainObjectField(v, reg, ctx, k);
    if s.out.Success? {
      assert k in DataKeys(v);
      BindingKept(c0, c, v, v.id);
      assert FieldValue(v, k, reg, c) == Deserialize(w, reg, c);
      FieldDefinesBelow(v, k, w, v.id);
      FieldRefersBack(w, reg, c, k2, v.id, a);
    }
  }

  /**
    Once a typed node has been deserialized, a reference to its id resolves to
    the result, provided no node below it reuses the id.
  */
  lemma LaterReference(v: Input, reg: Registry, ctx: Ctx)
    requires v.Node? && v.id != "" && v.typename != ""
    requires !ChildDefines(v, v.id)
    ensures var s := Deserialize(v, reg, ctx);
      s.out.Success? ==>
        DeserializeRef(v.id, s.ctx) == Step(Success(s.out.value), s.ctx)
  {
    var s := Deserialize(v, reg, ctx);
    if s.out.Success? {
      if v.typename == "Function" {
        FunctionRegistered(v, reg, ctx);
      } else if v.elements.List? {
        ArrayRegistered(v, reg, ctx);
      } else {
        ObjectRegistered(v, reg, ctx);
      }
    }
  }

  lemma FunctionRegistered(v: Input, reg: Registry, ctx: Ctx)
    requires v.Node? && v.id != "" && v.typename == "Function"
    requires !ChildDefines(v, v.id)
    ensures var s := Deserialize(v, reg, ctx);
      s.out.Success? ==> v.id in s.ctx.refs && s.out.value == Ref(s.ctx.refs[v.id])
  {
    var c1 := Install(ctx, Func(v.paramDefine, v.body), v.id);
    FunctionBuilt(v, reg, ctx);
    if RunRequested(c1, reg) {
      var ps := Params(v, GetMeta(reg, ParentTypeName(c1)), reg, c1);
      BindingKept(c1, ps.ctx, v, v.id);
    }
  }

  lemma ArrayRegistered(v: Input, reg: Registry, ctx: Ctx)
    requires v.Node? && v.id != "" && v.typename != "" && v.typename != "Function" && v.elements.List?
    requires !ChildDefines(v, v.id)
    ensures var s := Deserialize(v, reg, ctx);
      s.out.Success? ==> v.id in s.ctx.refs && s.out.value == Ref(s.ctx.refs[v.id])
  {
    if v.typename == "Array" {
      assert Deserialize(v, reg, ctx) == PlainArray(v, reg, ctx);
      var a := |ctx.heap|;
      var c := Install(ctx, Record("Array", map[], [], []), v.id);
      var named := if v.data.Data? then Fields(v, a, Keys(v.data.fields), 0, reg, c) else Step(Success(()), c);
      BindingKept(c, named.ctx, v, v.id);
      if named.out.Success? {
        var indexed := Elems(v, a, Serialized(v.elements.items), 0, reg, named.ctx);
        BindingKept(named.ctx, indexed.ctx, v, v.id);
        assert PlainArray(v, reg, ctx) == Finish(indexed, a);
      }
    } else {
      assert Deserialize(v, reg, ctx) == InstanceArray(v, reg, ctx);
      var made := Construct(v, reg, ctx);
      if made.out.Success? {
        var a := made.out.value;
        var named :=
          if v.data.NoData? then Step(Success(()), made.ctx)
          else Fields(v, a, InstanceKeys(v, GetMeta(reg, v.typename)).value, 0, reg, made.ctx);
        BindingKept(made.ctx, named.ctx, v, v.id);
        if named.out.Success? {
          var indexed := Elems(v, a, Live(a), 0, reg, named.ctx);
          BindingKept(named.ctx, indexed.ctx, v, v.id);
          assert InstanceArray(v, reg, ctx) == Finish(indexed, a);
        }
      }
    }
  }

  lemma ObjectRegistered(v: Input, reg: Registry, ctx: Ctx)
    requires v.Node? && v.id != "" && v.typename != "" && v.typename != "Function" && v.elements.NoList?
    requires !ChildDefines(v, v.id)
    ensures var s := Deserialize(v, reg, ctx);
      s.out.Success? ==> v.id in s.ctx.refs && s.out.value == Ref(s.ctx.refs[v.id])
  {
    if v.typename == "Object" {
      assert Deserialize(v, reg, ctx) == PlainObject(v, reg, ctx);
      var a := |ctx.heap|;
      var c := Install(ctx, Record("Object", map[], [], []), v.id);
      var named := Fields(v, a, if v.data.Data? then Keys(v.data.fields) else [], 0, reg, c);
      BindingKept(c, named.ctx, v, v.id);
      assert PlainObject(v, reg, ctx) == Finish(named, a);
    } else {
      assert Deserialize(v, reg, ctx) == InstanceObject(v, reg, ctx);
      var made := Construct(v, reg, ctx);
      if made.out.Success? {
        var keys := InstanceKeys(v, GetMeta(reg, v.typename));
        if keys.Some? {
          var named := Fields(v, made.out.value, keys.value, 0, reg, made.ctx);
          BindingKept(made.ctx, named.ctx, v, v.id);
          assert InstanceObject(v, reg, ctx) == Finish(named, made.out.value);
        }
      }
    }
  }

  /** At the root nothing is registered yet: a reference node always dangles. */
  lemma RootReferenceDangles(v: Input, reg: Registry)
    requires v.Node? && v.id != "" && v.typename == ""
    ensures DeserializeRoot(v, reg) == Step(Failure(MissingRef(v.id)), Empty)
  {
  }
}

=== FILE: engine.dfy ===
/**
  The deserialize engine: a recursive dispatcher that turns a transport tree into
  objects in the arena, threading the context through every step. Element and
  parameter lists, which the source resolves with `Promise.all`, are resolved one
  after the other in index order.
*/
module Engine {

  import opened Wrappers
  import opened Transport
  import opened Context
  import opened Registry

  /** The cases of the dispatcher. */
  datatype Shape =
    | Unchanged   // a primitive, `null`, or an object without a truthy `id`
    | Reference   // an `id` without a `typename`
    | Callable    // `typename` "Function"
    | ArrayLike   // an `array` is present
    | ObjectLike  // anything else

  /**
    The shape the dispatcher sees. `null` counts as a primitive here, which is
    not what the source does; see `Findings.ClassifyAsWritten`.
  */
  function Classify(v: Input): (r: Shape)
    ensures r == Unchanged <==> !(v.Node? && v.id != "")
    ensures r == Reference <==> v.Node? && v.id != "" && v.typename == ""
    ensures r == Callable <==> v.Node? && v.id != "" && v.typename == "Function"
    ensures r == ArrayLike <==> v.Node? && v.id != "" && v.typename !in {"", "Function"} && v.elements.List?
    ensures r == ObjectLike <==> v.Node? && v.id != "" && v.typename !in {"", "Function"} && v.elements.NoList?
  {
    match v
    case Prim(_) => Unchanged
    case Null => Unchanged
    case Node(id, typename, _, elements, _, _, _) =>
      if id == "" then Unchanged
      else if typename == "" then Reference
      else if typename == "Function" then Callable
      else if elements.List? then ArrayLike
      else ObjectLike
  }

  /** `deserialize(obj, context)`. */
  function Deserialize(v: Input, reg: Registry, ctx: Ctx): (s: Step<Value>)
    decreases v, 6
    ensures Extends(ctx, s.ctx)
    ensures NewRefsFrom(ctx, s.ctx, v)
  {
    match Classify(v)
    case Unchanged => Step(Success(Same(v)), ctx)
    case Reference => DeserializeRef(v.id, ctx)
    case Callable => DeserializeFunction(v, reg, ctx)
    case ArrayLike => DeserializeArray(v, reg, ctx)
    case ObjectLike => DeserializeObject(v, reg, ctx)
  }

  /** `deserialize(obj)` with a fresh context. */
  function DeserializeRoot(v: Input, reg: Registry): (s: Step<Value>)
    ensures forall d :: d in s.ctx.refs ==> Defines(v, d) && s.ctx.refs[d] < |s.ctx.heap|
  {
    Deserialize(v, reg, Empty)
  }

  /** `deserializeRef`: the object registered under `id`, or a dangling-reference error. */
  function DeserializeRef(id: string, ctx: Ctx): (s: Step<Value>)
    ensures s.ctx == ctx
    ensures s.out.Success? <==> id in ctx.refs
    ensures s.out.Success? ==> s.out.value == Ref(ctx.refs[id])
    ensures s.out.Failure? ==> s.out.error == MissingRef(id)
  {
    if id in ctx.refs then Step(Success(Ref(ctx.refs[id])), ctx)
    else Step(Failure(MissingRef(id)), ctx)
  }

  /** `deserializeParams(obj.param, context, meta)`. */
  function Params(n: Input, meta: Option<Meta>, reg: Registry, ctx: Ctx): (s: Step<seq<Value>>)
    requires n.Node?
    decreases n, 2
    ensures Extends(ctx, s.ctx)
    ensures n.param.NoList? ==> s == Step(Success([]), ctx)
    ensures n.param.List? && s.out.Success? ==> |s.out.value| == |n.param.items|
    ensures NewRefsBelow(ctx, s.ctx, n)
    ensures NewRefsInParams(ctx, s.ctx, n)
  {
    if n.param.NoList? then Step(Success([]), ctx) else ParamsFrom(n, meta, 0, reg, ctx)
  }

  /**
    The parameters from index `i` on: the declared `toPlain` converter of the
    parameter when there is one, the generic deserialization otherwise.
  */
  function ParamsFrom(n: Input, meta: Option<Meta>, i: nat, reg: Registry, ctx: Ctx): (s: Step<seq<Value>>)
    requires n.Node? && n.param.List? && i <= |n.param.items|
    decreases n, 1, |n.param.items| - i
    ensures Extends(ctx, s.ctx)
    ensures s.out.Success? ==> |s.out.value| == |n.param.items| - i
    ensures NewRefsBelow(ctx, s.ctx, n)
    ensures NewRefsInParams(ctx, s.ctx, n)
  {
    if i == |n.param.items| then Step(Success([]), ctx)
    else
      var first := ParamValue(n, meta, i, reg, ctx);
      if first.out.Failure? then Step(Failure(first.out.error), first.ctx)
      else
        var rest := ParamsFrom(n, meta, i + 1, reg, first.ctx);
        if rest.out.Failure? then rest
        else Step(Success([first.out.value] + rest.out.value), rest.ctx)
  }

  /**
    Parameter `i`: its declared `toPlain` converter applied to the serialized
    entry, which leaves the context alone and whose error, if it throws, is the
    parameter's; or else its generic deserialization.
  */
  function ParamValue(n: Input, meta: Option<Meta>, i: nat, reg: Registry, ctx: Ctx): (s: Step<Value>)
    requires n.Node? && n.param.List? && i < |n.param.items|
    decreases n, 0
    ensures Extends(ctx, s.ctx)
    ensures NewRefsBelow(ctx, s.ctx, n)
    ensures NewRefsInParams(ctx, s.ctx, n)
  {
    var p := n.param.items[i];
    var conv := if meta.Some? then meta.value.paramToPlain(i) else None;
    if conv.Some? then Step(conv.value(p, ctx), ctx)
    else
      var s := Deserialize(p, reg, ctx);
      NewRefsOfParam(ctx, s.ctx, n, i);
      s
  }

  /** The value read for `key`: `deserialize(obj.data[key])`, with the cursor already set. */
  function FieldValue(n: Input, key: string, reg: Registry, c: Ctx): (s: Step<Value>)
    requires n.Node?
    decreases n, 0
    ensures Extends(c, s.ctx)
    ensures NewRefsBelow(c, s.ctx, n)
  {
    if n.data.NoData? then Step(Failure(TypeError), c)
    else
      match FindKey(n.data.fields, key)
      case None => Step(Success(Same(Prim(Undefined))), c)
      case Some(j) => Deserialize(n.data.fields[j].val, reg, c)
  }

  /** The value stored at index `i`: `deserialize(obj.array[i])`, with the cursor already set. */
  function ElemValue(n: Input, i: nat, reg: Registry, c: Ctx): (s: Step<Value>)
    requires n.Node? && n.elements.List? && i < |n.elements.items|
    decreases n, 0
    ensures Extends(c, s.ctx)
    ensures NewRefsBelow(c, s.ctx, n)
  {
    Deserialize(n.elements.items[i], reg, c)
  }

  /**
    The named-field loop from position `i` of `keys`: point the cursor at
    (`a`, key) and assign the field's value onto the object at `a`.
  */
  function Fields(n: Input, a: Addr, keys: seq<string>, i: nat, reg: Registry, ctx: Ctx): (s: Step<()>)
    requires n.Node? && i <= |keys|
    requires a < |ctx.heap| && ctx.heap[a].Record?
    decreases n, 1, |keys| - i
    ensures ExtendsBut(ctx, s.ctx, a)
    ensures s.ctx.heap[a].elems == ctx.heap[a].elems
    ensures NewRefsBelow(ctx, s.ctx, n)
  {
    if i == |keys| then Step(Success(()), ctx)
    else
      var c := ctx.(parent := Live(a), parentKey := Name(keys[i]));
      var child := FieldValue(n, keys[i], reg, c);
      if child.out.Failure? then Step(Failure(child.out.error), child.ctx)
      else
        var h := child.ctx.heap;
        var c' := child.ctx.(heap := h[a := h[a].(fields := h[a].fields[keys[i] := child.out.value])]);
        Fields(n, a, keys, i + 1, reg, c')
  }

  /**
    The indexed-element loop from index `i`: point the cursor at (`owner`, i)
    and store the element's value at index i of the object at `a`.
  */
  function Elems(n: Input, a: Addr, owner: Cursor, i: nat, reg: Registry, ctx: Ctx): (s: Step<()>)
    requires n.Node? && n.elements.List? && i <= |n.elements.items|
    requires a < |ctx.heap| && ctx.heap[a].Record? && |ctx.heap[a].elems| == i
    decreases n, 1, |n.elements.items| - i
    ensures ExtendsBut(ctx, s.ctx, a)
    ensures s.ctx.heap[a].fields == ctx.heap[a].fields
    ensures s.out.Success? ==>
      && |s.ctx.heap[a].elems| == |n.elements.items|
      && s.ctx.heap[a].elems[..i] == ctx.heap[a].elems
    ensures NewRefsBelow(ctx, s.ctx, n)
  {
    if i == |n.elements.items| then Step(Success(()), ctx)
    else
      var c := ctx.(parent := owner, parentKey := Index(i));
      var child := ElemValue(n, i, reg, c);
      if child.out.Failure? then Step(Failure(child.out.error), child.ctx)
      else
        var h := child.ctx.heap;
        var c' := child.ctx.(heap := h[a := h[a].(elems := h[a].elems + [child.out.value])]);
        var rest := Elems(n, a, owner, i + 1, reg, c');
        assert rest.out.Success? ==> rest.ctx.heap[a].elems[..i] == rest.ctx.heap[a].elems[..i + 1][..i];
        rest
  }

  /** The object at `a` as the result of a finished loop, or the loop's error. */
  function Finish(s: Step<()>, a: Addr): (r: Step<Value>)
    ensures r.ctx == s.ctx
    ensures r.out.Success? <==> s.out.Success?
    ensures r.out.Success? ==> r.out.value == Ref(a)
    ensures r.out.Failure? ==> r.out.error == s.out.error
  {
    if s.out.Failure? then Step(Failure(s.out.error), s.ctx) else Step(Success(Ref(a)), s.ctx)
  }

  /**
    A class instance: look up the type (failing before anything is added),
    resolve the constructor parameters, construct the instance with them, and
    add it to the reference table under the node's id.
  */
  function Construct(n: Input, reg: Registry, ctx: Ctx): (s: Step<Addr>)
    requires n.Node?
    decreases n, 3
    ensures Extends(ctx, s.ctx)
    ensures s.out.Success? ==>
      && s.out.value < |s.ctx.heap|
      && s.ctx.heap[s.out.value].Record?
      && s.ctx.heap[s.out.value].tag == n.typename
      && s.ctx.heap[s.out.value].fields == map[]
      && s.ctx.heap[s.out.value].elems == []
      && |ctx.heap| <= s.out.value
      && n.id in s.ctx.refs && s.ctx.refs[n.id] == s.out.value
      && n.typename in reg
      && |s.ctx.heap[s.out.value].args| == (if n.param.List? then |n.param.items| else 0)
    ensures n.typename !in reg ==> s == Step(Failure(UnknownType(n.typename)), ctx)
    ensures NewRefsAt(ctx, s.ctx, n)
  {
    if n.typename !in reg then Step(Failure(UnknownType(n.typename)), ctx)
    else
      var ps := Params(n, reg[n.typename], reg, ctx);
      if ps.out.Failure? then Step(Failure(ps.out.error), ps.ctx)
      else
        var a := |ps.ctx.heap|;
        var c := Install(ps.ctx, Record(n.typename, map[], [], ps.out.value), n.id);
        BelowThenNewRefs(ctx, ps.ctx, c, n);
        Step(Success(a), c)
  }

  /** The keys a class instance is populated with: the metadata's choice, else all of `data`. */
  function InstanceKeys(n: Input, meta: Option<Meta>): (keys: Option<seq<string>>)
    requires n.Node?
    ensures meta.Some? ==> keys == Some(meta.value.deserializableKeys(n.data))
    ensures meta.None? && n.data.Data? ==> keys == Some(Keys(n.data.fields))
    ensures meta.None? && n.data.NoData? ==> keys.None?
  {
    if meta.Some? then Some(meta.value.deserializableKeys(n.data))
    else if n.data.Data? then Some(Keys(n.data.fields))
    else None
  }

  /** `deserializeObject`: a plain `"Object"` or a registered class instance. */
  function DeserializeObject(n: Input, reg: Registry, ctx: Ctx): (s: Step<Value>)
    requires n.Node?
    decreases n, 5
    ensures Extends(ctx, s.ctx)
    ensures NewRefsAt(ctx, s.ctx, n)
  {
    if n.typename == "Object" then PlainObject(n, reg, ctx) else InstanceObject(n, reg, ctx)
  }

  /** `deserializeArray`: a plain `"Array"` or an array-like class instance. */
  function DeserializeArray(n: Input, reg: Registry, ctx: Ctx): (s: Step<Value>)
    requires n.Node? && n.elements.List?
    decreases n, 5
    ensures Extends(ctx, s.ctx)
    ensures NewRefsAt(ctx, s.ctx, n)
  {
    if n.typename == "Array" then PlainArray(n, reg, ctx) else InstanceArray(n, reg, ctx)
  }

  /** A fresh plain object, added under the node's id before its fields are resolved. */
  function PlainObject(n: Input, reg: Registry, ctx: Ctx): (s: Step<Value>)
    requires n.Node?
    decreases n, 4
    ensures Extends(ctx, s.ctx)
    ensures NewRefsAt(ctx, s.ctx, n)
  {
    var a := |ctx.heap|;
    var c := Install(ctx, Record("Object", map[], [], []), n.id);
    var named := Fields(n, a, if n.data.Data? then Keys(n.data.fields) else [], 0, reg, c);
    NewRefsThenBelow(ctx, c, named.ctx, n);
    Finish(named, a)
  }

  /**
    A class instance that is not array-like: constructed and added as by
    `Construct`, then populated with the keys `InstanceKeys` chooses.
  */
  function InstanceObject(n: Input, reg: Registry, ctx: Ctx): (s: Step<Value>)
    requires n.Node?
    decreases n, 4
    ensures Extends(ctx, s.ctx)
    ensures NewRefsAt(ctx, s.ctx, n)
  {
    var made := Construct(n, reg, ctx);
    if made.out.Failure? then Step(Failure(made.out.error), made.ctx)
    else
      var a := made.out.value;
      match InstanceKeys(n, GetMeta(reg, n.typename))
      case None => Step(Failure(TypeError), made.ctx)
      case Some(keys) =>
        var named := Fields(n, a, keys, 0, reg, made.ctx);
        NewRefsThenBelow(ctx, made.ctx, named.ctx, n);
        Finish(named, a)
  }

  /**
    A fresh plain array, added under the node's id; then its named `data`
    fields, then its elements with the cursor's parent set to the node's own
    serialized `array` rather than to the new array.
  */
  function PlainArray(n: Input, reg: Registry, ctx: Ctx): (s: Step<Value>)
    requires n.Node? && n.elements.List?
    decreases n, 4
    ensures Extends(ctx, s.ctx)
    ensures NewRefsAt(ctx, s.ctx, n)
  {
    var a := |ctx.heap|;
    var c := Install(ctx, Record("Array", map[], [], []), n.id);
    var named := if n.data.Data? then Fields(n, a, Keys(n.data.fields), 0, reg, c) else Step(Success(()), c);
    assert ExtendsBut(c, named.ctx, a) && named.ctx.heap[a].elems == [];
    NewRefsThenBelow(ctx, c, named.ctx, n);
    ExtendsPastFresh(ctx, c, named.ctx, a);
    if named.out.Failure? then Step(Failure(named.out.error), named.ctx)
    else
      var indexed := Elems(n, a, Serialized(n.elements.items), 0, reg, named.ctx);
      BelowTrans(c, named.ctx, indexed.ctx, n);
      NewRefsThenBelow(ctx, c, indexed.ctx, n);
      ExtendsButTrans(c, named.ctx, indexed.ctx, a);
      ExtendsPastFresh(ctx, c, indexed.ctx, a);
      Finish(indexed, a)
  }

  /**
    An array-like class instance: constructed and added as by `Construct`, its
    `data` fields (when present) populated with the keys `InstanceKeys` chooses,
    then its elements stored with the cursor on the instance.
  */
  function InstanceArray(n: Input, reg: Registry, ctx: Ctx): (s: Step<Value>)
    requires n.Node? && n.elements.List?
    decreases n, 4
    ensures Extends(ctx, s.ctx)
    ensures NewRefsAt(ctx, s.ctx, n)
  {
    var made := Construct(n, reg, ctx);
    if made.out.Failure? then Step(Failure(made.out.error), made.ctx)
    else
      var a := made.out.value;
      var named :=
        if n.data.NoData? then Step(Success(()), made.ctx)
        else Fields(n, a, InstanceKeys(n, GetMeta(reg, n.typename)).value, 0, reg, made.ctx);
      assert ExtendsBut(made.ctx, named.ctx, a) && named.ctx.heap[a].elems == [];
      ExtendsPastFresh(ctx, made.ctx, named.ctx, a);
      if named.out.Failure? then
        NewRefsThenBelow(ctx, made.ctx, named.ctx, n);
        Step(Failure(named.out.error), named.ctx)
      else
        var indexed := Elems(n, a, Live(a), 0, reg, named.ctx);
        BelowTrans(made.ctx, named.ctx, indexed.ctx, n);
        NewRefsThenBelow(ctx, made.ctx, indexed.ctx, n);
        ExtendsButTrans(made.ctx, named.ctx, indexed.ctx, a);
        ExtendsPastFresh(ctx, made.ctx, indexed.ctx, a);
        Finish(indexed, a)
  }

  /**
    `deserializeFunction`: the callable is rebuilt as an opaque `Func` record and
    added under its id. When the cursor names a field of a registered class whose
    metadata sets `RUN_ON_DESERIALIZE`, the parameters are resolved (with the
    parent class's parameter converters) and a run of the callable on the cursor's
    parent as it is after that resolution is logged.
  */
  function DeserializeFunction(n: Input, reg: Registry, ctx: Ctx): (s: Step<Value>)
    requires n.Node?
    decreases n, 5
    ensures Extends(ctx, s.ctx)
    ensures NewRefsAt(ctx, s.ctx, n)
    ensures forall d :: d in s.ctx.refs && !(d in ctx.refs && s.ctx.refs[d] == ctx.refs[d]) ==>
      d == n.id || ParamDefines(n, d)
  {
    var a := |ctx.heap|;
    var c := Install(ctx, Func(n.paramDefine, n.body), n.id);
    assert NewRefsAt(ctx, c, n);
    var meta := if HasParent(c) && HasKey(c) then GetMeta(reg, ParentTypeName(c)) else None;
    var field := if meta.Some? then meta.value.fieldMeta(c.parentKey) else None;
    if field.Some? && field.value.runOnDeserialize then
      var ps := Params(n, meta, reg, c);
      NewRefsThenBelow(ctx, c, ps.ctx, n);
      if ps.out.Failure? then Step(Failure(ps.out.error), ps.ctx)
      else Step(Success(Ref(a)), ps.ctx.(runs := ps.ctx.runs + [Run(a, ps.ctx.parent, ps.out.value)]))
    else Step(Success(Ref(a)), c)
  }
}

=== FILE: findings.dfy ===
/**
  Two places where `src/deserialize.ts` as written departs from what it
  evidently intends. Each is modelled as written here, next to a lemma that
  exhibits the difference; the rest of the model uses the intended behaviour.

  1. `typeof null` is "object", so the dispatcher reads `.id` of `null` and
     throws, although `null` is evidently meant to come back unchanged like
     every other value without an id.
  2. The element loop of an array-like class instance stores
     `deserialize(item, context)` without `await`: each element is a promise,
     and an element that fails becomes a rejected promise instead of failing
     the call.
*/
module Findings {

  import opened Wrappers
  import opened Transport
  import opened Context
  import opened Registry
  import opened Engine

  /** The dispatcher's case analysis as written: reading `.id` of `null` throws. */
  function ClassifyAsWritten(v: Input): (r: Result<Shape, Error>)
    ensures v.Null? ==> r == Failure(TypeError)
    ensures v.Prim? ==> r == Success(Unchanged)
    ensures v.Node? && v.id == "" ==> r == Success(Unchanged)
    ensures v.Node? && v.id != "" ==> r.Success? && r.value != Unchanged
  {
    match v
    case Null => Failure(TypeError)
    case _ => Success(Classify(v))
  }

  /**
    `null` is the one input on which the dispatcher as written and the model
    disagree: as written it throws, the model returns it unchanged. The values
    the model hands back untouched are exactly those the dispatcher as written
    passes through, and `null`.
  */
  lemma NullDiffers(reg: Registry, ctx: Ctx)
    ensures ClassifyAsWritten(Null) == Failure(TypeError)
    ensures Deserialize(Null, reg, ctx) == Step(Success(Same(Null)), ctx)
    ensures forall v :: Deserialize(v, reg, ctx) == Step(Success(Same(v)), ctx) <==>
      v == Null || ClassifyAsWritten(v) == Success(Unchanged)
  {
    forall v ensures Deserialize(v, reg, ctx).out == Success(Same(v)) ==> Classify(v) == Unchanged {
      NotSame(v, reg, ctx);
    }
  }

  /** Every input that names an object comes back as an object or an error, never as itself. */
  lemma NotSame(v: Input, reg: Registry, ctx: Ctx)
    ensures Classify(v) != Unchanged ==> Deserialize(v, reg, ctx).out != Success(Same(v))
  {
    match Classify(v)
    case Unchanged =>
    case Reference =>
    case Callable =>
    case ArrayLike =>
      assert Deserialize(v, reg, ctx) == DeserializeArray(v, reg, ctx);
      if v.typename == "Array" {
        assert DeserializeArray(v, reg, ctx) == PlainArray(v, reg, ctx);
      } else {
        assert DeserializeArray(v, reg, ctx) == InstanceArray(v, reg, ctx);
      }
    case ObjectLike =>
      assert Deserialize(v, reg, ctx) == DeserializeObject(v, reg, ctx);
      if v.typename == "Object" {
        assert DeserializeObject(v, reg, ctx) == PlainObject(v, reg, ctx);
      } else {
        assert DeserializeObject(v, reg, ctx) == InstanceObject(v, reg, ctx);
      }
  }

  /**
    The element loop of an array-like class instance as written: with the
    cursor on the instance, element `i` is set to the promise of its
    deserialization, which settles to the value or rejects with the error.
    The loop itself never fails.
  */
  function ElemsAsWritten(n: Input, a: Addr, i: nat, reg: Registry, ctx: Ctx): (s: Step<()>)
    requires n.Node? && n.elements.List? && i <= |n.elements.items|
    requires a < |ctx.heap| && ctx.heap[a].Record? && |ctx.heap[a].elems| == i
    decreases |n.elements.items| - i
    ensures s.out.Success?
    ensures ExtendsBut(ctx, s.ctx, a)
    ensures |s.ctx.heap[a].elems| == |n.elements.items|
    ensures s.ctx.heap[a].elems[..i] == ctx.heap[a].elems
    ensures forall j :: i <= j < |n.elements.items| ==>
      s.ctx.heap[a].elems[j].Pending? || s.ctx.heap[a].elems[j].Rejected?
  {
    if i == |n.elements.items| then Step(Success(()), ctx)
    else
      var c := ctx.(parent := Live(a), parentKey := Index(i));
      var child := ElemValue(n, i, reg, c);
      var promise := if child.out.Success? then Pending(child.out.value) else Rejected(child.out.error);
      var h := child.ctx.heap;
      var c' := child.ctx.(heap := h[a := h[a].(elems := h[a].elems + [promise])]);
      var rest := ElemsAsWritten(n, a, i + 1, reg, c');
      assert rest.ctx.heap[a].elems[i] == rest.ctx.heap[a].elems[..i + 1][i] == promise;
      assert rest.ctx.heap[a].elems[..i] == rest.ctx.heap[a].elems[..i + 1][..i];
      rest
  }

  /** `deserializeArray` for an array-like class instance, as written. */
  function InstanceArrayAsWritten(n: Input, reg: Registry, ctx: Ctx): (s: Step<Value>)
    requires n.Node? && n.elements.List?
    ensures Extends(ctx, s.ctx)
    ensures s.out.Success? ==>
      && s.out.value.Ref? && s.out.value.addr < |s.ctx.heap|
      && s.ctx.heap[s.out.value.addr].Record?
      && |s.ctx.heap[s.out.value.addr].elems| == |n.elements.items|
      && forall j :: 0 <= j < |n.elements.items| ==>
           s.ctx.heap[s.out.value.addr].elems[j].Pending? || s.ctx.heap[s.out.value.addr].elems[j].Rejected?
  {
    var made := Construct(n, reg, ctx);
    if made.out.Failure? then Step(Failure(made.out.error), made.ctx)
    else
      var a := made.out.value;
      var named :=
        if n.data.NoData? then Step(Success(()), made.ctx)
        else Fields(n, a, InstanceKeys(n, GetMeta(reg, n.typename)).value, 0, reg, made.ctx);
      assert ExtendsBut(made.ctx, named.ctx, a) && named.ctx.heap[a].elems == [];
      if named.out.Failure? then
        ExtendsPastFresh(ctx, made.ctx, named.ctx, a);
        Step(Failure(named.out.error), named.ctx)
      else
        var indexed := ElemsAsWritten(n, a, 0, reg, named.ctx);
        ExtendsButTrans(made.ctx, named.ctx, indexed.ctx, a);
        ExtendsPastFresh(ctx, made.ctx, indexed.ctx, a);
        Step(Success(Ref(a)), indexed.ctx)
  }

  /** A registered array-like class `Queue` whose serialized form holds the elements `items`. */
  function Queue(items: seq<Input>): (v: Input)
    ensures v.Node? && v.id == "q" && v.typename == "Queue" && v.elements == List(items)
  {
    Node("q", "Queue", NoData, List(items), NoList, [], "")
  }

  const QueueRegistry: Registry := map["Queue" := None]

  /**
    `{id: 'q', typename: 'Queue', array: [1]}`: as written the instance's
    element 0 is a promise of 1; the model stores 1 itself.
  */
  lemma PendingElementAsWritten()
    ensures var s := InstanceArrayAsWritten(Queue([Prim(Num(1))]), QueueRegistry, Empty);
      s.out == Success(Ref(0)) && s.ctx.heap[0].elems == [Pending(Same(Prim(Num(1))))]
    ensures var s := Deserialize(Queue([Prim(Num(1))]), QueueRegistry, Empty);
      s.out == Success(Ref(0)) && s.ctx.heap[0].elems == [Same(Prim(Num(1)))]
  {
  }

  /**
    `{id: 'q', typename: 'Queue', array: [{id: 'x'}]}` with nothing registered
    under 'x': as written the call succeeds and element 0 is a rejected
    promise; the model fails with the dangling-reference error.
  */
  lemma RejectionSwallowedAsWritten()
    ensures var s := InstanceArrayAsWritten(Queue([RefNode("x")]), QueueRegistry, Empty);
      s.out == Success(Ref(0)) && s.ctx.heap[0].elems == [Rejected(MissingRef("x"))]
    ensures Deserialize(Queue([RefNode("x")]), QueueRegistry, Empty).out
      == Failure(MissingRef("x"))
  {
  }
}

=== FILE: loops.dfy ===
/**
  The three loops of the deserializer, one turn at a time: which keys the
  named-field loop writes, and what each field, element and parameter holds.
*/
module Loops {

  import opened Wrappers
  import opened Transport
  import opened Context
  import opened Registry
  import opened Engine

  /**
    `val` is what `deserialize(obj.data[key])` gives with the cursor on
    (`a`, `key`), run in the context `c`, which continues `c0` except for the
    object at `a` and whose reference table has only gained entries for nodes
    below `n`.
  */
  ghost predicate FieldIn(n: Input, a: Addr, key: string, reg: Registry, c0: Ctx, c: Ctx, val: Value)
    requires n.Node?
  {
    && c.parent == Live(a) && c.parentKey == Name(key)
    && ExtendsBut(c0, c, a) && NewRefsBelow(c0, c, n)
    && FieldValue(n, key, reg, c).out == Success(val)
  }

  lemma FieldInEarlier(n: Input, a: Addr, key: string, reg: Registry, c0: Ctx, c1: Ctx, c: Ctx, val: Value)
    requires n.Node?
    requires ExtendsBut(c0, c1, a) && NewRefsBelow(c0, c1, n)
    requires FieldIn(n, a, key, reg, c1, c, val)
    ensures FieldIn(n, a, key, reg, c0, c, val)
  {
    ExtendsButTrans(c0, c1, c, a);
    BelowTrans(c0, c1, c, n);
  }

  /** One turn of the named-field loop, spelled out. */
  lemma FieldsStep(n: Input, a: Addr, keys: seq<string>, i: nat, reg: Registry, ctx: Ctx)
    returns (c: Ctx, child: Step<Value>, c': Ctx)
    requires n.Node? && i < |keys|
    requires a < |ctx.heap| && ctx.heap[a].Record?
    ensures c == ctx.(parent := Live(a), parentKey := Name(keys[i]))
    ensures child == FieldValue(n, keys[i], reg, c)
    ensures child.out.Failure? ==> Fields(n, a, keys, i, reg, ctx) == Step(Failure(child.out.error), child.ctx)
    ensures child.out.Success? ==>
      && a < |child.ctx.heap| && child.ctx.heap[a].Record?
      && c' == child.ctx.(heap := child.ctx.heap[a := child.ctx.heap[a].(fields := child.ctx.heap[a].fields[keys[i] := child.out.value])])
      && ExtendsBut(ctx, c', a) && NewRefsBelow(ctx, c', n)
      && c'.heap[a].fields == ctx.heap[a].fields[keys[i] := child.out.value]
      && Fields(n, a, keys, i, reg, ctx) == Fields(n, a, keys, i + 1, reg, c')
      && FieldIn(n, a, keys[i], reg, ctx, c, child.out.value)
  {
    c := ctx.(parent := Live(a), parentKey := Name(keys[i]));
    child := FieldValue(n, keys[i], reg, c);
    if child.out.Success? {
      var h := child.ctx.heap;
      c' := child.ctx.(heap := h[a := h[a].(fields := h[a].fields[keys[i] := child.out.value])]);
    } else {
      c' := child.ctx;
    }
  }

  /** The named-field loop writes exactly the listed keys and leaves every other field as it was. */
  lemma FieldsKeys(n: Input, a: Addr, keys: seq<string>, i: nat, reg: Registry, ctx: Ctx)
    requires n.Node? && i <= |keys|
    requires a < |ctx.heap| && ctx.heap[a].Record?
    ensures var s := Fields(n, a, keys, i, reg, ctx);
      s.out.Success? ==>
        && s.ctx.heap[a].fields.Keys == ctx.heap[a].fields.Keys + (set k | k in keys[i..])
        && (forall k :: k in ctx.heap[a].fields && k !in keys[i..] ==>
              s.ctx.heap[a].fields[k] == ctx.heap[a].fields[k])
  {
    FieldsKeySet(n, a, keys, i, reg, ctx);
    FieldsKeepOthers(n, a, keys, i, reg, ctx);
  }

  /** The keys `FieldsKeys` speaks of: those the object had, and the listed ones. */
  lemma {:induction false} FieldsKeySet(n: Input, a: Addr, keys: seq<string>, i: nat, reg: Registry, ctx: Ctx)
    requires n.Node? && i <= |keys|
    requires a < |ctx.heap| && ctx.heap[a].Record?
    ensures var s := Fields(n, a, keys, i, reg, ctx);
      s.out.Success? ==> s.ctx.heap[a].fields.Keys == ctx.heap[a].fields.Keys + (set k | k in keys[i..])
    decreases |keys| - i
  {
    if i < |keys| {
      var c, child, c' := FieldsStep(n, a, keys, i, reg, ctx);
      if child.out.Success? {
        FieldsKeySet(n, a, keys, i + 1, reg, c');
        KeysCons(keys[i..]);
        assert keys[i..][1..] == keys[i + 1..];
      }
    }
  }

  /** The keys of a list are its head's and its tail's. */
  lemma KeysCons(keys: seq<string>)
    requires |keys| > 0
    ensures (set k | k in keys) == {keys[0]} + (set k | k in keys[1..])
  {
    assert keys == [keys[0]] + keys[1..];
  }

  /** The fields `FieldsKeys` leaves alone: those whose key is not listed. */
  lemma {:induction false} FieldsKeepOthers(n: Input, a: Addr, keys: seq<string>, i: nat, reg: Registry, ctx: Ctx)
    requires n.Node? && i <= |keys|
    requires a < |ctx.heap| && ctx.heap[a].Record?
    ensures var s := Fields(n, a, keys, i, reg, ctx);
      s.out.Success? ==>
        forall k :: k in ctx.heap[a].fields && k !in keys[i..] ==>
          k in s.ctx.heap[a].fields && s.ctx.heap[a].fields[k] == ctx.heap[a].fields[k]
    decreases |keys| - i
  {
    if i < |keys| {
      var c, child, c' := FieldsStep(n, a, keys, i, reg, ctx);
      if child.out.Success? {
        FieldsKeepOthers(n, a, keys, i + 1, reg, c');
        assert keys[i..] == [keys[i]] + keys[i + 1..];
      }
    }
  }

  /**
    Every key the named-field loop writes holds the deserialization of its `data`
    entry, resolved in the context `c` this lemma names; whatever that
    deserialization built is still there, untouched, when the loop ends (only
    the object at `a` may have gained fields since).
  */
  lemma {:induction false} FieldAt(n: Input, a: Addr, keys: seq<string>, i: nat, reg: Registry, ctx: Ctx, k: string)
    returns (c: Ctx)
    requires n.Node? && i <= |keys|
    requires a < |ctx.heap| && ctx.heap[a].Record?
    ensures var s := Fields(n, a, keys, i, reg, ctx);
      s.out.Success? && k in keys[i..] ==>
        && k in s.ctx.heap[a].fields && FieldIn(n, a, k, reg, ctx, c, s.ctx.heap[a].fields[k])
        && ExtendsBut(FieldValue(n, k, reg, c).ctx, s.ctx, a)
    decreases |keys| - i
  {
    c := ctx;
    if i < |keys| {
      var c0, child, c' := FieldsStep(n, a, keys, i, reg, ctx);
      if child.out.Success? {
        assert keys[i..] == [keys[i]] + keys[i + 1..];
        var s := Fields(n, a, keys, i + 1, reg, c');
        if k in keys[i + 1..] {
          c := FieldAt(n, a, keys, i + 1, reg, c', k);
          if s.out.Success? {
            FieldInEarlier(n, a, k, reg, ctx, c', c, s.ctx.heap[a].fields[k]);
          }
        } else if k == keys[i] {
          c := FieldHere(n, a, keys, i, reg, ctx);
        }
      }
    }
  }

  /** `FieldAt` for the key written at position `i`, when no later position repeats it. */
  lemma FieldHere(n: Input, a: Addr, keys: seq<string>, i: nat, reg: Registry, ctx: Ctx)
    returns (c: Ctx)
    requires n.Node? && i < |keys| && keys[i] !in keys[i + 1..]
    requires a < |ctx.heap| && ctx.heap[a].Record?
    ensures var s := Fields(n, a, keys, i, reg, ctx);
      s.out.Success? ==>
        && keys[i] in s.ctx.heap[a].fields && FieldIn(n, a, keys[i], reg, ctx, c, s.ctx.heap[a].fields[keys[i]])
        && ExtendsBut(FieldValue(n, keys[i], reg, c).ctx, s.ctx, a)
  {
    var child, c';
    c, child, c' := FieldsStep(n, a, keys, i, reg, ctx);
    if child.out.Success? {
      FieldsKeys(n, a, keys, i + 1, reg, c');
      ExtendsButTrans(child.ctx, c', Fields(n, a, keys, i + 1, reg, c').ctx, a);
    }
  }

  /**
    `val` is what `deserialize(obj.array[i])` gives with the cursor on
    (`owner`, i), run in the context `c`, which continues `c0` except for the
    object at `a` and whose reference table has only gained entries for nodes
    below `n`.
  */
  ghost predicate ElementIn(n: Input, a: Addr, owner: Cursor, i: nat, reg: Registry, c0: Ctx, c: Ctx, val: Value)
    requires n.Node? && n.elements.List? && i < |n.elements.items|
  {
    && c.parent == owner && c.parentKey == Index(i)
    && ExtendsBut(c0, c, a) && NewRefsBelow(c0, c, n)
    && ElemValue(n, i, reg, c).out == Success(val)
  }

  lemma ElementInEarlier(n: Input, a: Addr, owner: Cursor, i: nat, reg: Registry, c0: Ctx, c1: Ctx, c: Ctx, val: Value)
    requires n.Node? && n.elements.List? && i < |n.elements.items|
    requires ExtendsBut(c0, c1, a) && NewRefsBelow(c0, c1, n)
    requires ElementIn(n, a, owner, i, reg, c1, c, val)
    ensures ElementIn(n, a, owner, i, reg, c0, c, val)
  {
    ExtendsButTrans(c0, c1, c, a);
    BelowTrans(c0, c1, c, n);
  }

  /** One turn of the indexed-element loop, spelled out. */
  lemma ElemsStep(n: Input, a: Addr, owner: Cursor, i: nat, reg: Registry, ctx: Ctx)
    returns (c: Ctx, child: Step<Value>, c': Ctx)
    requires n.Node? && n.elements.List? && i < |n.elements.items|
    requires a < |ctx.heap| && ctx.heap[a].Record? && |ctx.heap[a].elems| == i
    ensures c == ctx.(parent := owner, parentKey := Index(i))
    ensures child == ElemValue(n, i, reg, c)
    ensures child.out.Failure? ==> Elems(n, a, owner, i, reg, ctx) == Step(Failure(child.out.error), child.ctx)
    ensures child.out.Success? ==>
      && a < |child.ctx.heap| && child.ctx.heap[a].Record?
      && c' == child.ctx.(heap := child.ctx.heap[a := child.ctx.heap[a].(elems := child.ctx.heap[a].elems + [child.out.value])])
      && ExtendsBut(ctx, c', a) && NewRefsBelow(ctx, c', n)
      && c'.heap[a].elems == ctx.heap[a].elems + [child.out.value]
      && Elems(n, a, owner, i, reg, ctx) == Elems(n, a, owner, i + 1, reg, c')
      && ElementIn(n, a, owner, i, reg, ctx, c, child.out.value)
  {
    c := ctx.(parent := owner, parentKey := Index(i));
    child := ElemValue(n, i, reg, c);
    if child.out.Success? {
      var h := child.ctx.heap;
      c' := child.ctx.(heap := h[a := h[a].(elems := h[a].elems + [child.out.value])]);
    } else {
      c' := child.ctx;
    }
  }

  /**
    Each element the indexed-element loop stores is the deserialization of its
    entry: element `j` is resolved in the context `c` this lemma names, and
    whatever that deserialization built is still there, untouched, when the
    loop ends (only the object at `a` may have gained elements since).
  */
  lemma {:induction false} ElemAt(n: Input, a: Addr, owner: Cursor, i: nat, reg: Registry, ctx: Ctx, j: nat)
    returns (c: Ctx)
    requires n.Node? && n.elements.List? && i <= j < |n.elements.items|
    requires a < |ctx.heap| && ctx.heap[a].Record? && |ctx.heap[a].elems| == i
    ensures var s := Elems(n, a, owner, i, reg, ctx);
      s.out.Success? ==>
        && ElementIn(n, a, owner, j, reg, ctx, c, s.ctx.heap[a].elems[j])
        && ExtendsBut(ElemValue(n, j, reg, c).ctx, s.ctx, a)
    decreases |n.elements.items| - i
  {
    var c0, child, c' := ElemsStep(n, a, owner, i, reg, ctx);
    c := c0;
    if child.out.Success? {
      var s := Elems(n, a, owner, i + 1, reg, c');
      if j == i {
        if s.out.Success? {
          assert s.ctx.heap[a].elems[i] == s.ctx.heap[a].elems[..i + 1][i] == child.out.value;
          ExtendsButTrans(child.ctx, c', s.ctx, a);
        }
      } else {
        c := ElemAt(n, a, owner, i + 1, reg, c', j);
        if s.out.Success? {
          ElementInEarlier(n, a, owner, j, reg, ctx, c', c, s.ctx.heap[a].elems[j]);
        }
      }
    }
  }

  /**
    `val` is parameter `i` as `deserializeParams` resolves it: its converter's
    result when one is declared, its deserialization otherwise, in the context
    `c`, which continues `c0` and has only gained entries for nodes below `n`.
  */
  ghost predicate ParamIn(n: Input, meta: Option<Meta>, i: nat, reg: Registry, c0: Ctx, c: Ctx, val: Value)
    requires n.Node? && n.param.List? && i < |n.param.items|
  {
    && Extends(c0, c) && NewRefsBelow(c0, c, n)
    && ParamValue(n, meta, i, reg, c).out == Success(val)
  }

  lemma ParamInEarlier(n: Input, meta: Option<Meta>, i: nat, reg: Registry, c0: Ctx, c1: Ctx, c: Ctx, val: Value)
    requires n.Node? && n.param.List? && i < |n.param.items|
    requires Extends(c0, c1) && NewRefsBelow(c0, c1, n)
    requires ParamIn(n, meta, i, reg, c1, c, val)
    ensures ParamIn(n, meta, i, reg, c0, c, val)
  {
    ExtendsTrans(c0, c1, c);
    BelowTrans(c0, c1, c, n);
  }

  /**
    What the parameter loop started at `i` in `ctx` says about parameter `j`:
    when the loop succeeds, its value `j - i` is parameter `j` resolved in `c`,
    and whatever that resolution built is still there, untouched, when the loop
    ends.
  */
  ghost predicate ParamResolved(n: Input, meta: Option<Meta>, i: nat, reg: Registry, ctx: Ctx, j: nat, c: Ctx)
    requires n.Node? && n.param.List? && i <= j < |n.param.items|
  {
    var s := ParamsFrom(n, meta, i, reg, ctx);
    s.out.Success? ==>
      && ParamIn(n, meta, j, reg, ctx, c, s.out.value[j - i])
      && Extends(ParamValue(n, meta, j, reg, c).ctx, s.ctx)
  }

  /** One turn of the parameter loop, spelled out. */
  lemma ParamsStep(n: Input, meta: Option<Meta>, i: nat, reg: Registry, ctx: Ctx)
    returns (first: Step<Value>, rest: Step<seq<Value>>)
    requires n.Node? && n.param.List? && i < |n.param.items|
    ensures first == ParamValue(n, meta, i, reg, ctx)
    ensures first.out.Failure? ==> ParamsFrom(n, meta, i, reg, ctx) == Step(Failure(first.out.error), first.ctx)
    ensures first.out.Success? ==>
      && rest == ParamsFrom(n, meta, i + 1, reg, first.ctx)
      && ParamsFrom(n, meta, i, reg, ctx) ==
           if rest.out.Failure? then rest else Step(Success([first.out.value] + rest.out.value), rest.ctx)
  {
    first := ParamValue(n, meta, i, reg, ctx);
    rest := if first.out.Success? then ParamsFrom(n, meta, i + 1, reg, first.ctx) else Step(Success([]), ctx);
  }

  /** Parameter `j > i` keeps its place and its witness when parameter `i` is prepended. */
  lemma ParamShift(n: Input, meta: Option<Meta>, i: nat, reg: Registry, ctx: Ctx, j: nat, c: Ctx)
    requires n.Node? && n.param.List? && i < j < |n.param.items|
    requires ParamValue(n, meta, i, reg, ctx).out.Success?
    requires ParamResolved(n, meta, i + 1, reg, ParamValue(n, meta, i, reg, ctx).ctx, j, c)
    ensures ParamResolved(n, meta, i, reg, ctx, j, c)
  {
    var first, rest := ParamsStep(n, meta, i, reg, ctx);
    if rest.out.Success? {
      assert ([first.out.value] + rest.out.value)[j - i] == rest.out.value[j - (i + 1)];
      ParamInEarlier(n, meta, j, reg, ctx, first.ctx, c, rest.out.value[j - (i + 1)]);
    }
  }

  /**
    `deserializeParams` yields one value per entry of `param`, in order: value
    `j - i` is parameter `j` resolved, as `ParamIn` says, in the context `c` this
    lemma names, and whatever that resolution built is still there, untouched,
    when the loop ends.
  */
  lemma {:induction false} ParamAt(n: Input, meta: Option<Meta>, i: nat, reg: Registry, ctx: Ctx, j: nat)
    returns (c: Ctx)
    requires n.Node? && n.param.List? && i <= j < |n.param.items|
    ensures ParamResolved(n, meta, i, reg, ctx, j, c)
    decreases |n.param.items| - i
  {
    c := ctx;
    var first, rest := ParamsStep(n, meta, i, reg, ctx);
    if first.out.Success? && j > i {
      c := ParamAt(n, meta, i + 1, reg, first.ctx, j);
      ParamShift(n, meta, i, reg, ctx, j, c);
    } else if first.out.Success? {
      ParamHere(n, meta, i, reg, ctx);
    }
  }

  /** `ParamAt` for the first parameter of the loop, resolved in the loop's own starting context. */
  lemma ParamHere(n: Input, meta: Option<Meta>, i: nat, reg: Registry, ctx: Ctx)
    requires n.Node? && n.param.List? && i < |n.param.items|
    ensures ParamResolved(n, meta, i, reg, ctx, i, ctx)
  {
    var first, rest := ParamsStep(n, meta, i, reg, ctx);
    assert Extends(ctx, ctx) && NewRefsBelow(ctx, ctx, n);
  }
}

=== FILE: registry.dfy ===
/**
  The type registry and per-type metadata, as the deserializer consumes them.
  Their internals (decorators, mode bit values) are not part of this model: each
  query the deserializer makes is an uninterpreted function carried by `Meta`.
*/
module Registry {

  import opened Wrappers
  import opened Transport
  import opened Context

  /**
    A per-parameter `toPlain` converter; it sees the whole context, cursor
    included, and either returns a value or throws.
  */
  type Converter = (Input, Ctx) -> Result<Value, Error>

  /** What `meta.getFieldMeta(key)` reports: only the `RUN_ON_DESERIALIZE` bit matters here. */
  datatype FieldMeta = FieldMeta(runOnDeserialize: bool)

  datatype Meta = Meta(
    /** `meta.getDeserializableKeys(data)`. */
    deserializableKeys: Data -> seq<string>,
    /** `meta.getFieldMeta(key)`. */
    fieldMeta: Key -> Option<FieldMeta>,
    /** `meta.paramMeta[index]?.toPlain`. */
    paramToPlain: nat -> Option<Converter>)

  /**
    The registered type names. A registered type may have no metadata;
    `getType(name)` is defined exactly for the names in the map.
  */
  type Registry = map<string, Option<Meta>>

  /** `SerializableContext.getMeta(name)`. */
  function GetMeta(reg: Registry, name: string): (m: Option<Meta>)
    ensures m.Some? ==> name in reg && reg[name] == m
    ensures name !in reg ==> m.None?
  {
    if name in reg then reg[name] else None
  }
}

=== FILE: transport.dfy ===
/**
  The self-describing transport tree that the deserializer consumes.

  A transport node is `{id, typename, data?, array?, param?}`; a callable node also
  carries `paramDefine` and `body`. The source tests `id` and `typename` for
  truthiness, so an absent or empty string is written "" here; an absent
  `paramDefine` is written [] because the source reads it as `paramDefine || []`.
*/
module Transport {

  import opened Wrappers

  /** A JavaScript value whose `typeof` is not "object". Numbers are opaque. */
  datatype Scalar = Num(n: int) | Str(s: string) | Bool(b: bool) | Undefined

  /** The named fields of a node (`data`), listed in the object's enumeration order. */
  datatype Data = NoData | Data(fields: seq<Field>)

  /** An optional ordered sequence (`array`, `param`). */
  datatype List = NoList | List(items: seq<Input>)

  datatype Field = Field(key: string, val: Input)

  /**
    Anything the deserializer may be handed. A plain JavaScript object or array
    without an id is a `Node` whose `id` is "": the dispatcher returns it as it is,
    so its other components are never looked at. The node's `array` member is
    called `elements` here, since `array` is a Dafny keyword.
  */
  datatype Input =
    | Prim(p: Scalar)
    | Null
    | Node(id: string, typename: string, data: Data, elements: List, param: List,
           paramDefine: seq<string>, body: string)

  /** The reference node `{id}`: an id and nothing else. */
  function RefNode(id: string): Input {
    Node(id, "", NoData, NoList, NoList, [], "")
  }

  /** `Object.keys(data)` and the order of `for (const key in data)`. */
  function Keys(fields: seq<Field>): (ks: seq<string>)
    ensures |ks| == |fields|
    ensures forall i :: 0 <= i < |fields| ==> ks[i] == fields[i].key
  {
    if fields == [] then [] else [fields[0].key] + Keys(fields[1..])
  }

  /** The position of `key` in `fields` (`data[key]`), if it has one. */
  function FindKey(fields: seq<Field>, key: string): (r: Option<nat>)
    ensures r.Some? ==> r.value < |fields| && fields[r.value].key == key
    ensures r.None? <==> key !in Keys(fields)
  {
    if fields == [] then None
    else if fields[0].key == key then Some(0)
    else
      match FindKey(fields[1..], key)
      case None => None
      case Some(j) => Some(j + 1)
  }

  /**
    Some node of `v` that the deserializer may add to the reference table
    carries the id `d`. Objects without an id and reference nodes add nothing,
    and nothing below them is visited.
  */
  ghost predicate Defines(v: Input, d: string)
    decreases v, 2
  {
    v.Node? && v.id != "" && v.typename != "" && (v.id == d || ChildDefines(v, d))
  }

  /** Some node below `n` (in `data`, `array` or `param`) defines the id `d`. */
  ghost predicate ChildDefines(n: Input, d: string)
    requires n.Node?
    decreases n, 1
  {
    || (n.data.Data? && exists j :: 0 <= j < |n.data.fields| && Defines(n.data.fields[j].val, d))
    || (n.elements.List? && exists j :: 0 <= j < |n.elements.items| && Defines(n.elements.items[j], d))
    || ParamDefines(n, d)
  }

  /** Some node in `n`'s `param` list defines the id `d`. */
  ghost predicate ParamDefines(n: Input, d: string)
    requires n.Node?
    decreases n, 0
  {
    n.param.List? && exists j :: 0 <= j < |n.param.items| && Defines(n.param.items[j], d)
  }
}

=== FILE: values.dfy ===
/**
  Containers of plain values. When every entry of a plain object or array is
  returned unchanged by the dispatcher (a primitive, `null`, or an object
  without an id), the container is built without error, holds exactly those
  entries, and the only reference added is the container's own.
*/
module Values {

  import opened Wrappers
  import opened Transport
  import opened Context
  import opened Registry
  import opened Engine
  import opened Loops
  import opened Cases

  /** The dispatcher returns `x` as it is. */
  predicate Inert(x: Input) {
    Classify(x) == Unchanged
  }

  /** Every `data` entry of `n` is inert. */
  predicate InertData(n: Input) {
    n.Node? && n.data.Data? && forall j :: 0 <= j < |n.data.fields| ==> Inert(n.data.fields[j].val)
  }

  /** Every `array` entry of `n` is inert. */
  predicate InertElements(n: Input) {
    n.Node? && n.elements.List? && forall j :: 0 <= j < |n.elements.items| ==> Inert(n.elements.items[j])
  }

  /** `data[k]`: the entry under `k`, or `undefined` when there is none. */
  function Entry(n: Input, k: string): (x: Input)
    requires n.Node? && n.data.Data?
    ensures k !in Keys(n.data.fields) ==> x == Prim(Undefined)
    ensures k in Keys(n.data.fields) ==> exists j :: 0 <= j < |n.data.fields| && n.data.fields[j] == Field(k, x)
  {
    match FindKey(n.data.fields, k)
    case None => Prim(Undefined)
    case Some(j) => n.data.fields[j].val
  }

  /** Reading an inert entry (or a missing one) changes nothing and yields the entry itself. */
  lemma InertField(n: Input, k: string, reg: Registry, c: Ctx)
    requires InertData(n)
    ensures FieldValue(n, k, reg, c) == Step(Success(Same(Entry(n, k))), c)
  {
    match FindKey(n.data.fields, k)
    case None =>
    case Some(j) =>
      ReturnsUnchanged(n.data.fields[j].val, reg, c);
  }

  /**
    Over inert `data` the named-field loop cannot fail and adds no reference,
    no object and no run.
  */
  lemma {:induction false} FieldsOfValues(n: Input, a: Addr, keys: seq<string>, i: nat, reg: Registry, ctx: Ctx)
    requires InertData(n) && i <= |keys|
    requires a < |ctx.heap| && ctx.heap[a].Record?
    ensures var s := Fields(n, a, keys, i, reg, ctx);
      && s.out.Success?
      && s.ctx.refs == ctx.refs && s.ctx.runs == ctx.runs && |s.ctx.heap| == |ctx.heap|
    decreases |keys| - i
  {
    if i < |keys| {
      var c, child, c' := FieldsStep(n, a, keys, i, reg, ctx);
      InertField(n, keys[i], reg, c);
      FieldsOfValues(n, a, keys, i + 1, reg, c');
    }
  }

  /** One turn of the indexed-element loop over an inert entry: it is stored as it is. */
  lemma InertElemStep(n: Input, a: Addr, owner: Cursor, i: nat, reg: Registry, ctx: Ctx) returns (c': Ctx)
    requires InertElements(n) && i < |n.elements.items|
    requires a < |ctx.heap| && ctx.heap[a].Record? && |ctx.heap[a].elems| == i
    ensures c'.refs == ctx.refs && c'.runs == ctx.runs && |c'.heap| == |ctx.heap|
    ensures c'.heap[a].Record? && c'.heap[a].elems == ctx.heap[a].elems + [Same(n.elements.items[i])]
    ensures Elems(n, a, owner, i, reg, ctx) == Elems(n, a, owner, i + 1, reg, c')
  {
    var c, child;
    c, child, c' := ElemsStep(n, a, owner, i, reg, ctx);
    ReturnsUnchanged(n.elements.items[i], reg, c);
  }

  /**
    Over inert elements the indexed-element loop cannot fail and adds no
    reference, no object and no run.
  */
  lemma {:induction false} ElemsOfValues(n: Input, a: Addr, owner: Cursor, i: nat, reg: Registry, ctx: Ctx)
    requires InertElements(n) && i <= |n.elements.items|
    requires a < |ctx.heap| && ctx.heap[a].Record? && |ctx.heap[a].elems| == i
    ensures var s := Elems(n, a, owner, i, reg, ctx);
      && s.out.Success?
      && s.ctx.refs == ctx.refs && s.ctx.runs == ctx.runs && |s.ctx.heap| == |ctx.heap|
    decreases |n.elements.items| - i
  {
    if i < |n.elements.items| {
      var c' := InertElemStep(n, a, owner, i, reg, ctx);
      ElemsOfValues(n, a, owner, i + 1, reg, c');
    }
  }

  /** Over inert elements the indexed-element loop stores each entry as it is. */
  lemma {:induction false} ElemsStoreValues(n: Input, a: Addr, owner: Cursor, i: nat, reg: Registry, ctx: Ctx)
    requires InertElements(n) && i <= |n.elements.items|
    requires a < |ctx.heap| && ctx.heap[a].Record? && |ctx.heap[a].elems| == i
    ensures var s := Elems(n, a, owner, i, reg, ctx);
      s.out.Success? ==>
        forall j :: i <= j < |n.elements.items| ==> s.ctx.heap[a].elems[j] == Same(n.elements.items[j])
    decreases |n.elements.items| - i
  {
    if i < |n.elements.items| {
      var c' := InertElemStep(n, a, owner, i, reg, ctx);
      ElemsStoreValues(n, a, owner, i + 1, reg, c');
      var s := Elems(n, a, owner, i + 1, reg, c');
      if s.out.Success? {
        assert s.ctx.heap[a].elems[i] == s.ctx.heap[a].elems[..i + 1][i];
      }
    }
  }

  /**
    A plain `"Object"` over inert `data` always succeeds: the result is a new
    `Object` record whose fields are exactly the `data` entries, and the only
    reference added is the node's id.
  */
  lemma PlainObjectOfValues(v: Input, reg: Registry, ctx: Ctx)
    requires InertData(v) && v.id != "" && v.typename == "Object" && v.elements.NoList?
    ensures var s := Deserialize(v, reg, ctx);
            var a := |ctx.heap|;
      && s.out == Success(Ref(a))
      && s.ctx.refs == ctx.refs[v.id := a]
      && |s.ctx.heap| == a + 1 && s.ctx.heap[..a] == ctx.heap
      && s.ctx.heap[a].Record? && s.ctx.heap[a].tag == "Object"
      && s.ctx.heap[a].fields.Keys == DataKeys(v)
      && forall k :: k in s.ctx.heap[a].fields ==> s.ctx.heap[a].fields[k] == Same(Entry(v, k))
  {
    var s := Deserialize(v, reg, ctx);
    var a := |ctx.heap|;
    var c0 := Install(ctx, Record("Object", map[], [], []), v.id);
    assert s == DeserializeObject(v, reg, ctx) == PlainObject(v, reg, ctx);
    FieldsOfValues(v, a, Keys(v.data.fields), 0, reg, c0);
    PlainObjectBuilt(v, reg, ctx);
    forall k | k in s.ctx.heap[a].fields
      ensures s.ctx.heap[a].fields[k] == Same(Entry(v, k))
    {
      var c := PlainObjectField(v, reg, ctx, k);
      InertField(v, k, reg, c);
    }
  }

  /**
    A plain `"Array"` without `data` over inert elements always succeeds: the
    result is a new `Array` record holding exactly those elements in order, and
    the only reference added is the node's id.
  */
  lemma PlainArrayOfValues(v: Input, reg: Registry, ctx: Ctx)
    requires InertElements(v) && v.id != "" && v.typename == "Array" && v.data.NoData?
    ensures var s := Deserialize(v, reg, ctx);
            var a := |ctx.heap|;
      && s.out == Success(Ref(a))
      && s.ctx.refs == ctx.refs[v.id := a]
      && |s.ctx.heap| == a + 1 && s.ctx.heap[..a] == ctx.heap
      && s.ctx.heap[a] == Record("Array", map[], seq(|v.elements.items|, j requires 0 <= j < |v.elements.items| => Same(v.elements.items[j])), [])
  {
    var s := Deserialize(v, reg, ctx);
    var a := |ctx.heap|;
    var c0 := Install(ctx, Record("Array", map[], [], []), v.id);
    assert s == DeserializeArray(v, reg, ctx) == PlainArray(v, reg, ctx);
    ElemsOfValues(v, a, Serialized(v.elements.items), 0, reg, c0);
    ElemsStoreValues(v, a, Serialized(v.elements.items), 0, reg, c0);
    PlainArrayBuilt(v, reg, ctx);
  }
}

=== FILE: wrappers.dfy ===
/** `Option` and `Result`, shared by the model. */
module Wrappers {

  /** A value that may be absent (`undefined` in the source). */
  datatype Option<+T> = None | Some(value: T)

  /** The outcome of an operation that either produces a value or throws. */
  datatype Result<+T, +E> = Success(value: T) | Failure(error: E)
}
